=== FILE: README.md ===
# Project manager backend: teams, memberships and projects

This is a Dafny model of the authorization and membership core of a Django REST backend for managing
team projects. Users form teams. A team has two edit policies:

- `public_edit`: who may change the name and description;
- `privacy_edit`: meant to govern invites and deletion.

Each membership row says whether the member is an admin of the team. A project belongs to one team.

The model covers:

- the data model and its integrity constraints (`Models`, `Store`);
- the object-level permissions of teams and projects (`TeamPermissions`, `ProjectPermission`);
- the team serializers:
  - adding members by email in one batch;
  - setting admin flags in one batch;
  - creating a team;
  - updating a team under the policy guard;
  - the trimmed representation a plain member sees;
- the team and project view sets (`TeamViews`, `ProjectViews`). Each request handler is a method on
  the store, and a function gives its response status in terms of the state the request starts from.

One module, `AccessRules`, writes the system's authorization rules as a single table. It maps an
action, the actor's standing in the owning team, and the team's `public_edit` policy to a verdict:
allowed, insufficient role, or not a member. The permission classes, the serializer's policy guard,
the project view's admin check and the view set's status codes are all proved to agree with that
table.

The database is the class `Store.Database`, with the tables as fields. Its `Valid()` invariant
holds the primary keys, the unique email, the (user, team) uniqueness, the foreign keys and the
cascade on team deletion. Every write (`objects.create`, `bulk_create`, `bulk_update`, `save`,
`delete`) is a method that keeps `Valid()` and states the new tables in full.

Each loop in the source becomes a method proved equal to a specification function:

- the email loop of the batch add;
- the two loops of the batch update;
- the `setattr` loop of the team update.

Lemmas then state what those functions mean.

The batch add by email is modelled as the source writes it. Its loop checks only the stored
memberships, so a batch naming the same non-member twice queues that user twice. `bulk_create`
then fails on the (user, team) constraint, and the request is answered 500 with nothing inserted
(see "## Findings"). The corrected loop, which queues each user once, is kept beside it as the
intended behaviour. Lemmas prove that the two loops agree on every batch that does not name a
non-member twice.

Python and framework behaviour is modelled explicitly:

- `.get(...)` raising `DoesNotExist` is `None`/`Err`.
- A `ValidationError` is answered 400. Any other escaping exception is answered 500.
- A bare `except:` catches everything.
- A missing value and `0` are both falsy, so `not x` is true for each.
- A dict keeps the last value per key and iterates keys in first-insertion order.
- `check_object_permissions` stops at the first permission that does not grant.

## Model

| member | source | states |
|---|---|---|
| Models.PolicyCode | core/models.py:16-19 | each edit-policy choice is stored as a non-empty code of at most 5 characters, so it fits both the 10-character `public_edit` and the 5-character `privacy_edit` column |
| Models.ParsePolicy | core/models.py:16-19 | the field's choice check on a stored code (no modelled operation calls it; their inputs carry already-decoded choices): it accepts a string exactly when it is the code of some choice, and returns that choice |
| Models.PolicyCodeRoundTrip | core/models.py:16-19 | reading back the stored code of a choice gives that choice |
| Models.PolicyCodeInjective | core/models.py:16-19 | distinct choices are stored as distinct codes |
| Models.NewTeam | core/models.py:20-29 | a created team has the given name; an omitted description is blank and an omitted policy defaults to ALL |
| Models.UserByEmail | core/models.py:7-10 | the lookup by email returns a user holding that email, and fails exactly when no user holds it |
| Models.UserByEmailFindsOwner | core/models.py:8 | since emails are unique, the lookup returns the one user holding the email |
| Models.FindMember | core/models.py:35-41 | the membership lookup for (user, team) returns a row of that pair, and fails exactly when the user is not a member of the team |
| Models.FindMemberFindsRow | core/models.py:40-41 | under the (user, team) uniqueness, the lookup returns the one row of the pair |
| Models.MemberById | core/models.py:35-38 | the lookup by key returns a row with that key, and fails exactly when no row has it |
| Models.MemberByIdFindsRow | core/models.py:35-38 | since keys are unique, the lookup by key returns the one row with it |
| Models.Keep | core/models.py:40-41 | a filter keeps exactly the rows satisfying the condition; the unique keys and the (user, team) uniqueness carry over to the result |
| Models.MembersOfTeam | core/models.py:37 | the memberships of a team are exactly the rows whose team it is, with unique keys |
| AccessRules.RoleIn | core/models.py:35-41 | the actor's standing is "not a member" exactly when no membership row of the pair exists |
| AccessRules.RoleOfRow | core/models.py:38-41 | under the (user, team) uniqueness, the standing of a member is the admin flag of its one row |
| TeamPermissions.IsAllowedToEdit | team/permissions.py:10-20 | definition; its properties are stated by the lemma rows that follow |
| TeamPermissions.IsAllowedToEditFollowsRules | team/permissions.py:10-20 | methods other than PATCH and PUT are granted; for PATCH and PUT the decision is the rule table's "edit team information" verdict, and a non-member makes the lookup fail |
| TeamPermissions.EditDecisionOfMember | team/permissions.py:14-20 | for a member's PATCH or PUT: an admin is granted; a plain member is granted exactly when `public_edit` is ALL; the lookup never fails |
| TeamPermissions.IsAllowedToDelete | team/permissions.py:28-36 | definition; its properties are stated by the lemma rows that follow |
| TeamPermissions.IsAllowedToDeleteFollowsRules | team/permissions.py:28-36 | methods other than DELETE are granted; for DELETE the decision is the rule table's "delete team" verdict |
| TeamPermissions.DeleteDecisionOfMember | team/permissions.py:32-36 | a member's DELETE is granted exactly when the member is an admin |
| TeamPermissions.DeleteIgnoresPolicies | team/permissions.py:28-36 | the delete decision is the same whatever either policy of the team says, `privacy_edit` included |
| ProjectPermission.IsAllowedToUpdateOrDelete | project/permission.py:10-22 | definition; its properties are stated by the lemma rows that follow |
| ProjectPermission.IsAllowedToUpdateOrDeleteFollowsRules | project/permission.py:10-22 | safe methods are granted; any other method is granted exactly when the rule table allows a project write; the failed lookup of a non-member is refused, not raised |
| ProjectPermission.DecisionOfMember | project/permission.py:14-22 | for an unsafe method, a member of the project's team is granted exactly when that member is an admin |
| Store.NewRows | team/serializers.py:25-33 | the rows inserted for a list of users are one per user, each of the team with the given admin flag and a key in the fresh range, and every user gets a row |
| Store.NewRowsUniqueness | team/serializers.py:33 | the inserted rows have distinct keys, and they keep the (user, team) uniqueness exactly when no user occurs twice in the list |
| Store.WithAdminFlags | team/serializers.py:53 | the bulk update keeps the table's length and every row's key, user and team; a row whose key carries a flag takes that flag; a row whose key carries no flag is unchanged; both uniqueness constraints carry over |
| Store.Database.InsertTeam | team/serializers.py:113 | a new team gets a fresh key; the other tables are unchanged |
| Store.Database.InsertMembers | team/serializers.py:33 | the new rows are appended after the existing ones; the invariant holds for any batch of distinct users that are not yet members |
| Store.Database.SetAdminFlags | team/serializers.py:53 | the membership table becomes the flagged table; the other tables are unchanged |
| Store.Database.DeleteMember | team/views.py:94 | removes exactly the row with the key; the other tables are unchanged |
| Store.Database.DeleteTeam | core/models.py:37 | removes the team, every membership of the team (the `CASCADE` on `TeamMember.team`) and every project of the team (assumed, see Left out); the users are unchanged |
| Store.Database.SaveTeam | team/serializers.py:137 | replaces the fields of the one team; the other tables are unchanged |
| Store.Database.InsertProject | project/serializers.py:25-30 | a new project of an existing team gets a fresh key; the other tables are unchanged |
| TeamSerializers.RepeatedEmailIsQueuedTwice | team/serializers.py:17-33 | as written, a batch naming the same non-member twice queues that user twice, and the two rows break the (user, team) uniqueness |
| TeamSerializers.Queue | team/serializers.py:17-31 | definition; its properties are stated by the lemma rows that follow |
| TeamSerializers.AddPlan | team/serializers.py:9-33 | definition; its properties are stated by the lemma rows that follow |
| TeamSerializers.QueueFailsIff | team/serializers.py:18-31 | the corrected add loop fails exactly when some item has no email or an unknown email |
| TeamSerializers.QueueSound | team/serializers.py:17-31 | the corrected loop only extends its queue; every named user ends up queued or is already a member; every queued user is named by some item; the queue can be inserted |
| TeamSerializers.AddPlanMeaning | team/serializers.py:9-33 | the corrected batch add (each user queued once) fails exactly on an empty batch, a missing team, or an item whose email is missing or unknown; otherwise it queues, once each, exactly the named users who are not yet members |
| TeamSerializers.QueueErrors | team/serializers.py:19-31 | in the corrected loop, a missing email stops the loop with an exception that is not a validation error (500); an unknown email stops it with a validation error (400) |
| TeamSerializers.QueueAsWritten | team/serializers.py:17-31 | definition; its properties are stated by the lemma rows that follow |
| TeamSerializers.AddPlanAsWritten | team/serializers.py:9-33 | definition; its properties are stated by the lemma rows that follow |
| TeamSerializers.NamedNonMembersHolds | team/serializers.py:18-27 | a user is among the named non-members exactly when some item names that user and the user is not a member of the team |
| TeamSerializers.NamedNonMembersRepeats | team/serializers.py:18-27 | the named non-members repeat a user exactly when two items name the same non-member |
| TeamSerializers.QueueAsWrittenIsNamed | team/serializers.py:17-31 | the add loop as written, which consults only stored memberships, queues exactly the named non-members in item order, repeats kept |
| TeamSerializers.QueueAsWrittenFailsLikeQueue | team/serializers.py:18-31 | the loop as written and the corrected loop fail on the same inputs with the same error |
| TeamSerializers.QueueAgreesWithoutRepeat | team/serializers.py:17-31 | unless two items name the same non-member, the loop as written computes what the corrected loop does |
| TeamSerializers.AddPlanAsWrittenMeaning | team/serializers.py:9-33 | the batch add as written fails with an integrity error exactly when every email is known and two items name the same non-member; in every other case it is the corrected batch add |
| TeamSerializers.CollectNewMembers | team/serializers.py:17-31 | the loop, as written, computes exactly the specified queue or error |
| TeamSerializers.AddMembers | team/serializers.py:9-33 | the outcome is that of the batch add as written: the whole batch is added as plain members of the team, or on failure nothing is; a batch naming a non-member twice fails with the integrity error of `bulk_create` |
| TeamSerializers.DataMappingKeys | team/serializers.py:38-42 | the id-to-item mapping has exactly the ids the items name, iterated in order of first appearance, each once |
| TeamSerializers.DataMappingKeepsLast | team/serializers.py:42 | the item stored under an id is the last item naming that id |
| TeamSerializers.ResolveMeaning | team/serializers.py:44-51 | the second loop fails exactly when some id is not a member of the team, and then with the first such id; otherwise it yields each member with the flag of its stored item, defaulting to False |
| TeamSerializers.FlagsOfMeaning | team/serializers.py:53 | the flags written are keyed by exactly the keys of the updated rows, each with that row's flag |
| TeamSerializers.AdminUpdatePlan | team/serializers.py:37-51 | definition; its properties are stated by the lemma rows that follow |
| TeamSerializers.AdminUpdateFailure | team/serializers.py:39-48 | the batch update fails with "id missing" exactly when some item lacks a non-zero id; when every item has one, it fails exactly when some id is not a membership of the team |
| TeamSerializers.AdminUpdateErrors | team/serializers.py:40-48 | every failure of the batch update is a validation error (400) |
| TeamSerializers.AdminUpdateObjects | team/serializers.py:44-51 | on success each item has an id, and the rows written back are the team's rows for the distinct ids in order, with only their flags changed |
| TeamSerializers.AdminUpdateRows | team/serializers.py:44-51 | on success every id named by an item is written back, and every row written back is named by an item |
| TeamSerializers.AdminUpdateRowsDistinct | team/serializers.py:42-51 | no row is written back twice |
| TeamSerializers.AdminUpdateLastWins | team/serializers.py:42-50 | the flag written for a member is that of the last item naming it, False when that item omits `is_admin` |
| TeamSerializers.CollectAdminUpdates | team/serializers.py:37-51 | the two loops compute exactly the specified rows or error |
| TeamSerializers.UpdateMembers | team/serializers.py:35-54 | the outcome is the plan's; on failure nothing is written; on success the table gets the planned flags in one write |
| TeamSerializers.FlaggedRowIsNamed | team/serializers.py:44-53 | a row that receives a flag is a membership of the team, and some item names it |
| TeamSerializers.NamedRowIsFlagged | team/serializers.py:42-53 | a row named by an item receives the flag of the last item naming it |
| TeamSerializers.AdminUpdateEffect | team/serializers.py:35-54 | after a successful batch update only flags change; a named member of the team has the last item's flag; every other row, of this team or another, is unchanged |
| TeamSerializers.CheckUserIsAdmin | team/serializers.py:118-122 | the admin check fails for a non-member; for a member it answers the member's admin flag |
| TeamSerializers.Representation | team/serializers.py:98-106 | an admin sees every team field; a plain member sees all but the two policy fields; the values shown are the team's; a non-member makes the lookup fail |
| TeamSerializers.CreateTeam | team/serializers.py:108-116 | the new team gets the given name and description with both policies ALL, whatever was sent; the creator becomes its only member, as an admin |
| TeamSerializers.AssignedKeepsUnnamed | team/serializers.py:135-136 | the assignment loop leaves every attribute no entry names as it was |
| TeamSerializers.AssignedTakesLast | team/serializers.py:135-136 | an attribute named by some entry takes the value of the last entry naming it |
| TeamSerializers.TeamUpdatePlan | team/serializers.py:124-138 | definition; its properties are stated by the lemma rows that follow |
| TeamSerializers.TeamUpdatePolicyRule | team/serializers.py:124-133 | an update is refused as "settings for admins only" exactly when it names a policy field and the rule table refuses a policy change to the actor; a plain member's update never changes either policy |
| TeamSerializers.SetAttributes | team/serializers.py:135-136 | the loop computes exactly the specified assigned team |
| TeamSerializers.UpdateTeam | team/serializers.py:124-138 | the outcome is the plan's; on failure the team is unchanged; on success exactly the one team is replaced |
| TeamViews.VisibleTeams | team/views.py:30-31 | definition; its properties are stated by the lemma rows that follow |
| TeamViews.VisibleTeamsAreMemberships | team/views.py:30-31 | the teams listed are exactly the teams of the requester's memberships |
| TeamViews.GetPermissions | team/views.py:99-109 | definition; its properties are stated by the lemma rows that follow |
| TeamViews.GetObject | team/views.py:28-31 | definition; its properties are stated by the lemma rows that follow |
| TeamViews.DefaultPermissions | team/views.py:99-109 | the standard actions apply the edit permission and then the delete permission, the first refusal deciding |
| TeamViews.EditRequestFollowsRules | team/views.py:28 | a PUT or PATCH finds the team exactly for its members (404 otherwise); the rule table's "edit team information" rule then decides between 403 and going on; it is never answered 500 |
| TeamViews.DeleteRequestFollowsRules | team/views.py:28 | a DELETE finds the team exactly for its members; admins go on and plain members get 403; never 500 |
| TeamViews.OtherActionsNeedMembership | team/views.py:99-109 | retrieve and `remove_member` succeed exactly for members of the team, and fail only with 404; `members` is decided by its own rule once the team is found |
| TeamViews.RetrieveResponse | team/views.py:25-31 | retrieving a team succeeds exactly for its members; an admin sees every field and a plain member all but the policies; anyone else gets 404 |
| TeamViews.ManageMembersStatus | team/views.py:43-68 | definition; its properties are stated by the lemma rows that follow |
| TeamViews.ManageMembersFailures | team/views.py:51-68 | a POST is answered 500 exactly when the batch is empty, a missing email comes before any unknown email, or every email is known and two items name the same non-member; 201 exactly when the batch is non-empty, every email is known and no non-member is named twice; a PATCH is answered 400 exactly when an id is missing or unknown |
| TeamViews.ManageMembersView | team/views.py:43-68 | GET lists exactly the team's memberships; a 201 POST adds the batch as the loop as written queues it; a 200 PATCH writes the planned flags; any other answer leaves the store unchanged |
| TeamViews.RemoveMemberStatus | team/views.py:70-97 | definition; its properties are stated by the lemma rows that follow |
| TeamViews.RemoveMemberOutcome | team/views.py:70-97 | a team the requester cannot see gives 404; no membership `memberId` in that team gives 404; for a membership in the team, the permission's grant gives 204, its refusal 403, and a failed lookup inside it 404 |
| TeamViews.RemovalStaysInTeam | team/views.py:77-95 | a removal succeeds only for a member of the team and only for a membership of that team; only that row goes, and every other row stays |
| TeamViews.RemoveMemberView | team/views.py:70-97 | the status is the specified one; a 204 removes exactly the row with the id; any other answer leaves the table unchanged |
| TeamViews.UpdateTeamStatus | team/views.py:25-28 | definition; its properties are stated by the lemma rows that follow |
| TeamViews.UpdateTeamOutcome | team/views.py:28 | for a member's well-formed update: an admin always gets 200; a plain member gets 200 exactly when `public_edit` is ALL and no policy field is named, 403 under ADMIN, and 400 for a policy field under ALL |
| TeamViews.UpdateTeamView | team/views.py:25-28 | the status is the specified one; a 200 saves the assigned team; any other answer leaves the teams unchanged |
| TeamViews.DestroyTeamStatus | team/views.py:28 | a DELETE is answered 204 exactly for an admin of the team, 403 exactly for a plain member, and 404 exactly for anyone else |
| TeamViews.DestroyTeamView | team/views.py:25-28 | a 204 removes the team with its memberships and projects; any other answer leaves the store unchanged |
| TeamViews.CreateTeamView | team/views.py:25-26 | a well-formed request creates a team with both policies at their defaults, whose creator is its admin; a malformed one gets 400 and changes nothing |
| ProjectViews.VisibleProjects | project/views.py:23-24 | definition; its properties are stated by the lemma rows that follow |
| ProjectViews.VisibleProjectsFollowTeams | project/views.py:23-24 | a project is listed exactly when its team is one the team view set lists |
| ProjectViews.CheckTeamAdmin | project/views.py:26-43 | definition; its properties are stated by the lemma rows that follow |
| ProjectViews.CheckTeamAdminFollowsRules | project/views.py:26-43 | the admin check answers 404 exactly for a non-member, 403 exactly for a plain member, and nothing exactly when the rule table allows a project write |
| ProjectViews.CreateProjectStatus | project/views.py:45-55 | definition; its properties are stated by the lemma rows that follow |
| ProjectViews.CreateProjectOutcome | project/views.py:45-55 | a missing or zero `team_id` is answered 400; a project is created exactly when a non-zero `team_id` names a team the requester administers and the request is well formed; a non-member gets 404 and a plain member 403 |
| ProjectViews.CreateProject | project/views.py:45-59 | the status is the specified one; on 201 the new project belongs to the named team and is visible to the requester; otherwise the store is unchanged |

## Left out

- Authentication (`TokenAuthentication`, the `IsAuthenticated` 401/403) is not modelled; every request comes from an authenticated user.
- DRF field validation (`is_valid()`, email and integer field parsing) is abstracted as a `valid` flag per request. A non-numeric `team_id` is outside the model.
- `IsAllowedToAddOrEditMembers` and `IsAllowedToRemoveMembers` are imported by team/views.py, but their definitions are not part of this model. They are parameters of the views that consult them (`MembersRule`, `RemovalRule`).
- The commented-out `IsAllowedToInviteMembers` is not modelled.
- `privacy_edit` is stored but never consulted by any code in the core, whatever the comment on the field says. `TeamPermissions.DeleteIgnoresPolicies` states this.
- `IsAllowedToUpdateOrDelete` is modelled, but `ProjectViewSet` lists only `IsAuthenticated`, so no view applies it.
- Project list, retrieve, update and delete go through the framework's generic handlers. The model covers only their query set (`VisibleProjects`) and `create`.
- Project `deadline`, tasks and comments are not modelled (core/migrations/0008_task.py and the project serializers' other fields), because no core operation reads them.
- `TeamListSerializer` and `ProjectListSerializer` render hyperlinks. URL rendering is not modelled, and the list responses are modelled as the sets of keys listed.
- The response bodies (serialized data, error messages) are not modelled; only the status codes and the store are.
- Transactions and concurrent requests are not modelled. Each store method is one atomic write.
- User first and last names in the member serializer are read-only display fields and are not modelled.
- The `is_admin` default of False (core/models.py:38) is never relied on, because every insert in the core passes the flag explicitly.
- ProjectViews.CreateProjectOutcome: `team_id` is taken as an integer already decoded from JSON, so only a missing value and `0` are falsy (project/views.py:47-48). A form-encoded request sends it as a string. There the string "0" is truthy, and the source goes on to the membership check and answers 404 where the model answers 400. String-valued `team_id`s are not modelled.
- The `Project` class is imported from core.models, but its definition is not part of this model. Its fields are taken from the serializer's field list (project/serializers.py:20-23) and from the view, which saves a new project with the request's team id (project/views.py:53-59). Its model here is `Project(name, description, team)`.
- Store.Database.DeleteTeam: the `Project` definition is not part of this model, so the `on_delete` of its team foreign key is not visible. It is assumed to be `CASCADE`, like `TeamMember.team` (core/models.py:37), so deleting a team deletes its projects.
- The team tests disagree with the code in several places, and the model follows the code. team/tests/test_team_api.py:73-77 expects 400 for a non-member's GET, where the code answers 404 (`get_queryset`, team/views.py:30-31). Lines 154-167 expect 400 for a plain member's PATCH under `ADMIN`, where `IsAllowedToEdit` answers 403. Lines 184-189 expect 400 for a non-member's DELETE, where the code answers 404. Lines 202-211 expect 204 for a plain member's DELETE, where `IsAllowedToDelete` answers 403, as its docstring says.
- TeamViews.ManageMembersView: the verb is one of GET, POST and PATCH. The framework also routes HEAD to the `members` action; there it falls through every branch and returns `None`, which the framework answers with 500. HEAD requests are not modelled.

## Findings

| source | as written | input that shows it | evidently intended | confidence | as-written member | corrected member |
|---|---|---|---|---|---|---|
| team/serializers.py:24 | the duplicate check consults only the stored memberships, not the users already queued in the same batch | a POST to `members` of a team with the items `{"email": "ann@example.com"}` twice, where ann is a registered non-member: ann is queued twice, and `bulk_create` violates `unique_together`, which nothing catches (500) | each user in a batch is added once, as the comment on lines 22-23 says | not executed | TeamSerializers.RepeatedEmailIsQueuedTwice | TeamSerializers.AddPlanMeaning |

=== FILE: access_rules.dfy ===
/**
 * The authorization rules of the system written as one table: for an action kind, the
 * actor's standing in the team that owns the target and the team's `public_edit` policy,
 * the verdict. Non-members are always told apart from members with too little rank.
 *
 * This is the reference the permission classes, the team serializer and the project
 * view are proved against.
 */
module AccessRules {
  import opened Wrappers
  import opened Models

  /** The actor's standing in the team that owns the target. */
  datatype Role = NotAMember | Member(isAdmin: bool)

  datatype Action =
    | EditTeamInfo      // change name or description
    | DeleteTeam
    | ChangeTeamPolicy  // change public_edit or privacy_edit
    | WriteProject      // create, update or delete a project of the team

  datatype Verdict = Allowed | NotMember | InsufficientRole

  function Check(action: Action, role: Role, publicEdit: EditPolicy): Verdict {
    match role
    case NotAMember => NotMember
    case Member(isAdmin) =>
      if isAdmin then Allowed
      else if action == EditTeamInfo && publicEdit == All then Allowed
      else InsufficientRole
  }

  /** The actor's standing, read from the membership table. */
  function RoleIn(members: seq<TeamMember>, user: UserId, team: TeamId): (r: Role)
    ensures r == NotAMember <==> !IsMember(members, user, team)
  {
    match FindMember(members, user, team)
    case None => NotAMember
    case Some(m) => Member(m.isAdmin)
  }

  /** Under the (user, team) uniqueness constraint the standing is that of the one row of the pair. */
  lemma RoleOfRow(members: seq<TeamMember>, i: int)
    requires UniqueMemberships(members)
    requires 0 <= i < |members|
    ensures RoleIn(members, members[i].user, members[i].team) == Member(members[i].isAdmin)
  {
    FindMemberFindsRow(members, i);
  }
}

=== FILE: http.dfy ===
/** The pieces of the web framework the core talks in: request methods and response codes. */
module Http {

  datatype HttpMethod = GET | HEAD | OPTIONS | POST | PUT | PATCH | DELETE

  /** The framework's read-only methods (`permissions.SAFE_METHODS`). */
  predicate IsSafe(m: HttpMethod) {
    m == GET || m == HEAD || m == OPTIONS
  }

  datatype Status =
    | Ok200
    | Created201
    | NoContent204
    | BadRequest400
    | Forbidden403
    | NotFound404
    | ServerError500
}

=== FILE: models.dfy ===
/**
 * The data model of core/models.py: users, teams with their two edit policies, and the
 * team memberships that join them, together with the lookups the rest of the system
 * performs on these tables (`objects.get(email=...)`, `team.member.get(user=...)`,
 * `TeamMember.objects.filter(team=...)`).
 *
 * Users and memberships are tables kept as sequences of rows, each row carrying its
 * primary key; teams and projects are maps from primary key to row.
 */
module Models {
  import opened Wrappers

  type UserId = int
  type TeamId = int
  type MemberId = int
  type ProjectId = int

  /** An account. The email is unique and is the login identifier (`USERNAME_FIELD`). */
  datatype User = User(id: UserId, email: string, username: string)

  /** The two choices of `EDIT_PERMISSION_CHOICES`. */
  datatype EditPolicy = All | Admin

  /** The stored code of a policy choice. */
  function PolicyCode(p: EditPolicy): (code: string)
    // both codes fit `privacy_edit`'s column, which is the narrower one (max_length 5)
    ensures 0 < |code| <= 5
  {
    match p
    case All => "ALL"
    case Admin => "ADMIN"
  }

  /** Choice validation of a policy field: exactly the two codes are accepted. */
  function ParsePolicy(code: string): (r: Option<EditPolicy>)
    ensures r.Some? ==> PolicyCode(r.value) == code
    ensures r.None? ==> forall p: EditPolicy :: PolicyCode(p) != code
  {
    if code == "ALL" then Some(All)
    else if code == "ADMIN" then Some(Admin)
    else None
  }

  lemma PolicyCodeRoundTrip(p: EditPolicy)
    ensures ParsePolicy(PolicyCode(p)) == Some(p)
  {
  }

  /** Distinct choices are stored as distinct codes. */
  lemma PolicyCodeInjective(p: EditPolicy, q: EditPolicy)
    requires PolicyCode(p) == PolicyCode(q)
    ensures p == q
  {
    PolicyCodeRoundTrip(p);
    PolicyCodeRoundTrip(q);
  }

  /**
   * A team. `publicEdit` says who may change the name and description, `privacyEdit`
   * who may manage membership and delete the team.
   */
  datatype Team = Team(name: string, description: string, publicEdit: EditPolicy, privacyEdit: EditPolicy)

  /** `Team.objects.create(...)`: an omitted description is empty, an omitted policy is ALL. */
  function NewTeam(name: string, description: Option<string>,
                   publicEdit: Option<EditPolicy>, privacyEdit: Option<EditPolicy>): (t: Team)
    ensures t.name == name
    ensures description.None? ==> t.description == ""
    ensures description.Some? ==> t.description == description.value
    ensures publicEdit.None? ==> t.publicEdit == All
    ensures publicEdit.Some? ==> t.publicEdit == publicEdit.value
    ensures privacyEdit.None? ==> t.privacyEdit == All
    ensures privacyEdit.Some? ==> t.privacyEdit == privacyEdit.value
  {
    Team(name, description.GetOr(""), publicEdit.GetOr(All), privacyEdit.GetOr(All))
  }

  /** A membership row: `user` belongs to `team`, as an admin or not. */
  datatype TeamMember = TeamMember(id: MemberId, user: UserId, team: TeamId, isAdmin: bool)

  /** A project; it belongs to exactly one team. */
  datatype Project = Project(name: string, description: string, team: TeamId)

  predicate UniqueUserIds(users: seq<User>) {
    forall i, j :: 0 <= i < j < |users| ==> users[i].id != users[j].id
  }

  /** The `unique=True` constraint on the email column. */
  predicate UniqueEmails(users: seq<User>) {
    forall i, j :: 0 <= i < j < |users| ==> users[i].email != users[j].email
  }

  predicate UserExists(users: seq<User>, id: UserId) {
    exists i :: 0 <= i < |users| && users[i].id == id
  }

  predicate UniqueMemberIds(members: seq<TeamMember>) {
    forall i, j :: 0 <= i < j < |members| ==> members[i].id != members[j].id
  }

  /** The `unique_together = ["user", "team"]` constraint. */
  predicate UniqueMemberships(members: seq<TeamMember>) {
    forall i, j :: 0 <= i < j < |members| ==>
      members[i].user != members[j].user || members[i].team != members[j].team
  }

  /** `team.member.filter(user=user).exists()` */
  predicate IsMember(members: seq<TeamMember>, user: UserId, team: TeamId) {
    exists i :: 0 <= i < |members| && members[i].user == user && members[i].team == team
  }

  /** `get_user_model().objects.get(email=email)`; None is `DoesNotExist`. */
  function UserByEmail(users: seq<User>, email: string): (r: Option<UserId>)
    ensures r.Some? ==> exists i :: 0 <= i < |users| && users[i].email == email && users[i].id == r.value
    ensures r.None? <==> forall i :: 0 <= i < |users| ==> users[i].email != email
  {
    if users == [] then None
    else if users[0].email == email then Some(users[0].id)
    else
      var r := UserByEmail(users[1..], email);
      assert forall i :: 1 <= i < |users| ==> users[i] == users[1..][i - 1];
      r
  }

  /** Because emails are unique, the lookup finds the one user holding the email. */
  lemma {:induction false} UserByEmailFindsOwner(users: seq<User>, email: string, i: int)
    requires UniqueEmails(users)
    requires 0 <= i < |users| && users[i].email == email
    ensures UserByEmail(users, email) == Some(users[i].id)
  {
    if i > 0 {
      assert users[0].email != email;
      assert users[1..][i - 1] == users[i];
      UserByEmailFindsOwner(users[1..], email, i - 1);
    }
  }

  /** `team.member.get(user=user)`; None is `TeamMember.DoesNotExist`. */
  function FindMember(members: seq<TeamMember>, user: UserId, team: TeamId): (r: Option<TeamMember>)
    ensures r.Some? ==> r.value in members && r.value.user == user && r.value.team == team
    ensures r.None? <==> !IsMember(members, user, team)
  {
    if members == [] then None
    else if members[0].user == user && members[0].team == team then Some(members[0])
    else
      var r := FindMember(members[1..], user, team);
      assert forall i :: 1 <= i < |members| ==> members[i] == members[1..][i - 1];
      r
  }

  /** Because (user, team) is unique, the lookup finds the one membership of the pair. */
  lemma {:induction false} FindMemberFindsRow(members: seq<TeamMember>, i: int)
    requires UniqueMemberships(members)
    requires 0 <= i < |members|
    ensures FindMember(members, members[i].user, members[i].team) == Some(members[i])
  {
    if i > 0 {
      assert members[1..][i - 1] == members[i];
      FindMemberFindsRow(members[1..], i - 1);
    }
  }

  /** `queryset.get(pk=id)`; None is the lookup failing. */
  function MemberById(rows: seq<TeamMember>, id: MemberId): (r: Option<TeamMember>)
    ensures r.Some? ==> r.value in rows && r.value.id == id
    ensures r.None? <==> forall i :: 0 <= i < |rows| ==> rows[i].id != id
  {
    if rows == [] then None
    else if rows[0].id == id then Some(rows[0])
    else
      var r := MemberById(rows[1..], id);
      assert forall i :: 1 <= i < |rows| ==> rows[i] == rows[1..][i - 1];
      r
  }

  /** Because primary keys are unique, the lookup finds the one row with the key. */
  lemma {:induction false} MemberByIdFindsRow(rows: seq<TeamMember>, i: int)
    requires UniqueMemberIds(rows)
    requires 0 <= i < |rows|
    ensures MemberById(rows, rows[i].id) == Some(rows[i])
  {
    if i > 0 {
      assert rows[1..][i - 1] == rows[i];
      MemberByIdFindsRow(rows[1..], i - 1);
    }
  }

  /**
   * `filter(...)` on the membership table: the rows satisfying `keep`, in table order.
   * Both uniqueness constraints carry over to the result.
   */
  function Keep(s: seq<TeamMember>, keep: TeamMember -> bool): (r: seq<TeamMember>)
    ensures |r| <= |s|
    ensures forall m :: m in r <==> m in s && keep(m)
    ensures UniqueMemberIds(s) ==> UniqueMemberIds(r)
    ensures UniqueMemberships(s) ==> UniqueMemberships(r)
  {
    if s == [] then []
    else
      var rest := Keep(s[1..], keep);
      assert forall m :: m in s[1..] ==> m in s;
      if keep(s[0]) then
        assert UniqueMemberIds(s) ==> forall m :: m in s[1..] ==> m.id != s[0].id by {
          if UniqueMemberIds(s) {
            forall m | m in s[1..] ensures m.id != s[0].id {
              var j :| 0 <= j < |s[1..]| && s[1..][j] == m;
              assert s[j + 1] == m;
            }
          }
        }
        assert UniqueMemberships(s) ==> forall m :: m in s[1..] ==> m.user != s[0].user || m.team != s[0].team by {
          if UniqueMemberships(s) {
            forall m | m in s[1..] ensures m.user != s[0].user || m.team != s[0].team {
              var j :| 0 <= j < |s[1..]| && s[1..][j] == m;
              assert s[j + 1] == m;
            }
          }
        }
        var r := [s[0]] + rest;
        assert forall k :: 1 <= k < |r| ==> r[k] == rest[k - 1] && r[k] in rest;
        r
      else
        rest
  }

  /** `TeamMember.objects.filter(team=team)`: the memberships of one team. */
  function MembersOfTeam(members: seq<TeamMember>, team: TeamId): (r: seq<TeamMember>)
    ensures forall m :: m in r <==> m in members && m.team == team
    ensures UniqueMemberIds(members) ==> UniqueMemberIds(r)
  {
    Keep(members, (m: TeamMember) => m.team == team)
  }
}

=== FILE: project_permission.dfy ===
/**
 * The object-level permission of project/permission.py. Unlike the team permissions it
 * catches the failed membership lookup and answers False, so a non-member and a plain
 * member receive the same refusal.
 */
module ProjectPermission {
  import opened Http
  import opened Models
  import opened AccessRules

  /** `IsAllowedToUpdateOrDelete.has_object_permission` for a request on `project`. */
  function IsAllowedToUpdateOrDelete(verb: HttpMethod, members: seq<TeamMember>, user: UserId,
                                     project: Project): bool
  {
    if IsSafe(verb) then true
    else
      match FindMember(members, user, project.team)
      case None => false
      case Some(member) => member.isAdmin
  }

  /**
   * Read-only methods are always allowed; any other method is allowed exactly when the rule
   * table allows a project write, i.e. for an admin of the project's team.
   */
  lemma IsAllowedToUpdateOrDeleteFollowsRules(verb: HttpMethod, members: seq<TeamMember>,
                                              user: UserId, project: Project, publicEdit: EditPolicy)
    ensures IsSafe(verb) ==> IsAllowedToUpdateOrDelete(verb, members, user, project)
    ensures !IsSafe(verb) ==>
      (IsAllowedToUpdateOrDelete(verb, members, user, project) <==>
       Check(WriteProject, RoleIn(members, user, project.team), publicEdit) == Allowed)
    ensures !IsSafe(verb) && !IsMember(members, user, project.team) ==>
      !IsAllowedToUpdateOrDelete(verb, members, user, project)
  {
  }

  /** A member's unsafe request is allowed exactly when that member is an admin. */
  lemma {:induction false} DecisionOfMember(verb: HttpMethod, members: seq<TeamMember>, i: int, project: Project)
    requires UniqueMemberships(members)
    requires 0 <= i < |members| && members[i].team == project.team
    requires !IsSafe(verb)
    ensures IsAllowedToUpdateOrDelete(verb, members, members[i].user, project) == members[i].isAdmin
  {
    FindMemberFindsRow(members, i);
  }
}

=== FILE: project_views.dfy ===
/**
 * project/views.py: the project view set. Its listing only shows projects of the
 * requester's teams, and creating a project requires a `team_id` naming a team the
 * requester administers. The view set applies no object-level permission of its own.
 */
module ProjectViews {
  import opened Wrappers
  import opened Http
  import opened Models
  import opened AccessRules
  import opened Store
  import opened TeamViews

  /** `get_queryset`: the projects of the teams `user` belongs to. */
  function VisibleProjects(projects: map<ProjectId, Project>, members: seq<TeamMember>, user: UserId): set<ProjectId> {
    set p | p in projects && IsMember(members, user, projects[p].team)
  }

  /** A project is listed exactly when its team is one the team view set lists. */
  lemma VisibleProjectsFollowTeams(teams: map<TeamId, Team>, projects: map<ProjectId, Project>,
                                   members: seq<TeamMember>, user: UserId)
    requires forall p :: p in projects ==> projects[p].team in teams
    ensures forall p :: p in VisibleProjects(projects, members, user) <==>
      p in projects && projects[p].team in VisibleTeams(teams, members, user)
  {
  }

  /** `check_team_admin`: nothing when `user` administers team `teamId`, else the status to answer. */
  function CheckTeamAdmin(members: seq<TeamMember>, user: UserId, teamId: int): Option<Status> {
    match FindMember(members, user, teamId)
    case None => Some(NotFound404)
    case Some(member) => if !member.isAdmin then Some(Forbidden403) else None
  }

  /**
   * `check_team_admin` is the rule table's "write project" rule: a non-member is answered
   * 404 (the team is not revealed), a plain member 403, and only an admin goes on.
   */
  lemma CheckTeamAdminFollowsRules(members: seq<TeamMember>, user: UserId, teamId: TeamId, publicEdit: EditPolicy)
    ensures CheckTeamAdmin(members, user, teamId) == Some(NotFound404) <==>
      Check(WriteProject, RoleIn(members, user, teamId), publicEdit) == NotMember
    ensures CheckTeamAdmin(members, user, teamId) == Some(Forbidden403) <==>
      Check(WriteProject, RoleIn(members, user, teamId), publicEdit) == InsufficientRole
    ensures CheckTeamAdmin(members, user, teamId).None? <==>
      Check(WriteProject, RoleIn(members, user, teamId), publicEdit) == Allowed
  {
  }

  /** The status `create` answers with; `teamId` is the request's `team_id`, None when absent. */
  function CreateProjectStatus(members: seq<TeamMember>, user: UserId, teamId: Option<int>, valid: bool): Status {
    if teamId.None? || teamId.value == 0 then BadRequest400
    else
      match CheckTeamAdmin(members, user, teamId.value)
      case Some(status) => status
      case None => if !valid then BadRequest400 else Created201
  }

  /**
   * A missing or zero `team_id` is answered 400 before any membership check. A project is
   * created exactly when a non-zero `team_id` names a team the requester administers and
   * the rest of the request is well formed.
   */
  lemma CreateProjectOutcome(members: seq<TeamMember>, user: UserId, teamId: Option<int>, valid: bool)
    ensures teamId.None? || teamId.value == 0 ==> CreateProjectStatus(members, user, teamId, valid) == BadRequest400
    ensures CreateProjectStatus(members, user, teamId, valid) == Created201 <==>
      teamId.Some? && teamId.value != 0 && RoleIn(members, user, teamId.value) == Member(true) && valid
    ensures teamId.Some? && teamId.value != 0 && !IsMember(members, user, teamId.value) ==>
      CreateProjectStatus(members, user, teamId, valid) == NotFound404
    ensures teamId.Some? && teamId.value != 0 && RoleIn(members, user, teamId.value) == Member(false) ==>
      CreateProjectStatus(members, user, teamId, valid) == Forbidden403
  {
    if teamId.Some? && teamId.value != 0 {
      CheckTeamAdminFollowsRules(members, user, teamId.value, All);
    }
  }

  /**
   * `create` followed by `perform_create` and the serializer's `create`: the new project
   * belongs to the team named by `team_id`.
   */
  method CreateProject(db: Database, user: UserId, teamId: Option<int>, valid: bool, name: string, description: string)
    returns (status: Status, created: Option<ProjectId>)
    requires db.Valid()
    modifies db
    ensures db.Valid()
    ensures status == CreateProjectStatus(old(db.members), user, teamId, valid)
    ensures status == Created201 ==>
      && created.Some? && created.value !in old(db.projects)
      && db.projects == old(db.projects)[created.value := Project(name, description, teamId.value)]
      && created.value in VisibleProjects(db.projects, db.members, user)
    ensures status != Created201 ==> created.None? && db.Contents() == old(db.Contents())
    ensures db.users == old(db.users) && db.teams == old(db.teams) && db.members == old(db.members)
  {
    if teamId.None? || teamId.value == 0 {
      return BadRequest400, None;
    }
    var res := CheckTeamAdmin(db.members, user, teamId.value);
    if res.Some? {
      return res.value, None;
    }
    if !valid {
      return BadRequest400, None;
    }
    var member := FindMember(db.members, user, teamId.value);
    assert member.value in db.members;
    var id := db.InsertProject(Project(name, description, teamId.value));
    return Created201, Some(id);
  }
}

=== FILE: store.dfy ===
/**
 * The relational store the views and serializers write to: the user, team, membership and
 * project tables, with the integrity the database enforces (primary keys, the unique email,
 * the (user, team) uniqueness, foreign keys and the cascade on team deletion) as the
 * object invariant `Valid`. Each method is one atomic write: `objects.create`,
 * `bulk_create`, `bulk_update`, `save`, `delete`.
 */
module Store {
  import opened Models

  /**
   * The rows `bulk_create` inserts for `us`, keys handed out from `firstId` on: one row of
   * `team` per user, each with a fresh key.
   */
  function NewRows(firstId: MemberId, team: TeamId, us: seq<UserId>, isAdmin: bool): (rows: seq<TeamMember>)
    ensures |rows| == |us|
    ensures forall m :: m in rows ==> m.team == team && m.isAdmin == isAdmin && m.user in us
    ensures forall m :: m in rows ==> firstId <= m.id < firstId + |us|
    ensures forall u :: u in us ==> exists m :: m in rows && m.user == u
  {
    var rows := seq(|us|, k requires 0 <= k < |us| => TeamMember(firstId + k, us[k], team, isAdmin));
    assert forall u :: u in us ==> exists m :: m in rows && m.user == u by {
      forall u | u in us ensures exists m :: m in rows && m.user == u {
        var k :| 0 <= k < |us| && us[k] == u;
        assert rows[k] in rows;
      }
    }
    rows
  }

  /** Row `k` inserted for `us` is that of the `k`-th user, with the `k`-th fresh key. */
  lemma NewRowAt(firstId: MemberId, team: TeamId, us: seq<UserId>, isAdmin: bool, k: int)
    requires 0 <= k < |us|
    ensures NewRows(firstId, team, us, isAdmin)[k] == TeamMember(firstId + k, us[k], team, isAdmin)
  {
  }

  /**
   * The inserted rows have distinct keys, and they keep the (user, team) uniqueness exactly
   * when no user occurs twice in `us`.
   */
  lemma NewRowsUniqueness(firstId: MemberId, team: TeamId, us: seq<UserId>, isAdmin: bool)
    ensures UniqueMemberIds(NewRows(firstId, team, us, isAdmin))
    ensures UniqueMemberships(NewRows(firstId, team, us, isAdmin)) <==>
      forall k, l :: 0 <= k < l < |us| ==> us[k] != us[l]
  {
    var rows := NewRows(firstId, team, us, isAdmin);
    forall k, l | 0 <= k < l < |rows|
      ensures rows[k].id != rows[l].id
      ensures rows[k].user == rows[l].user && rows[k].team == rows[l].team <==> us[k] == us[l]
    {
      NewRowAt(firstId, team, us, isAdmin, k);
      NewRowAt(firstId, team, us, isAdmin, l);
    }
  }

  /**
   * The membership table after `bulk_update(objs, ["is_admin"])` with `flags` keyed by row
   * id: a row whose key carries a flag takes that flag, and nothing else changes: every row
   * keeps its key, user and team, rows whose key carries no flag are left as they were, and
   * both uniqueness constraints carry over.
   */
  function WithAdminFlags(members: seq<TeamMember>, flags: map<MemberId, bool>): (r: seq<TeamMember>)
    ensures |r| == |members|
    ensures forall k :: 0 <= k < |members| ==>
      r[k].id == members[k].id && r[k].user == members[k].user && r[k].team == members[k].team
    ensures forall k :: 0 <= k < |members| && members[k].id !in flags ==> r[k] == members[k]
    ensures forall k :: 0 <= k < |members| && members[k].id in flags ==> r[k].isAdmin == flags[members[k].id]
    ensures UniqueMemberIds(members) ==> UniqueMemberIds(r)
    ensures UniqueMemberships(members) ==> UniqueMemberships(r)
  {
    seq(|members|, k requires 0 <= k < |members| =>
      if members[k].id in flags then members[k].(isAdmin := flags[members[k].id]) else members[k])
  }

  class Database {
    var users: seq<User>
    var teams: map<TeamId, Team>
    var members: seq<TeamMember>
    var projects: map<ProjectId, Project>
    var nextTeamId: int
    var nextMemberId: int
    var nextProjectId: int

    ghost predicate Valid()
      reads this
    {
      && UniqueUserIds(users) && UniqueEmails(users)
      && UniqueMemberIds(members) && UniqueMemberships(members)
      && 0 < nextTeamId && 0 < nextMemberId && 0 < nextProjectId
      && (forall m :: m in members ==> 0 < m.id < nextMemberId)
      && (forall m :: m in members ==> UserExists(users, m.user) && m.team in teams)
      && (forall t :: t in teams ==> 0 < t < nextTeamId)
      && (forall p :: p in projects ==> 0 < p < nextProjectId && projects[p].team in teams)
    }

    /** The four tables, for saying that a request left the store as it was. */
    ghost function Contents(): (seq<User>, map<TeamId, Team>, seq<TeamMember>, map<ProjectId, Project>)
      reads this
    {
      (users, teams, members, projects)
    }

    /** A store holding the registered `accounts` and nothing else. */
    constructor (accounts: seq<User>)
      requires UniqueUserIds(accounts) && UniqueEmails(accounts)
      ensures Valid()
      ensures users == accounts && teams == map[] && members == [] && projects == map[]
    {
      users := accounts;
      teams := map[];
      members := [];
      projects := map[];
      nextTeamId, nextMemberId, nextProjectId := 1, 1, 1;
    }

    /** `Team.objects.create(...)` */
    method InsertTeam(team: Team) returns (id: TeamId)
      requires Valid()
      modifies this
      ensures Valid()
      ensures id == old(nextTeamId) && id !in old(teams)
      ensures teams == old(teams)[id := team]
      ensures users == old(users) && members == old(members) && projects == old(projects)
      ensures nextMemberId == old(nextMemberId) && nextProjectId == old(nextProjectId)
    {
      id := nextTeamId;
      teams := teams[id := team];
      nextTeamId := nextTeamId + 1;
    }

    /** `TeamMember.objects.bulk_create(...)` of one row per user in `us`. */
    method InsertMembers(team: TeamId, us: seq<UserId>, isAdmin: bool) returns (rows: seq<TeamMember>)
      requires Valid()
      requires team in teams
      requires forall k :: 0 <= k < |us| ==> UserExists(users, us[k]) && !IsMember(members, us[k], team)
      requires forall k, l :: 0 <= k < l < |us| ==> us[k] != us[l]
      modifies this
      ensures Valid()
      ensures rows == NewRows(old(nextMemberId), team, us, isAdmin)
      ensures members == old(members) + rows
      ensures nextMemberId == old(nextMemberId) + |us|
      ensures users == old(users) && teams == old(teams) && projects == old(projects)
      ensures nextTeamId == old(nextTeamId) && nextProjectId == old(nextProjectId)
    {
      rows := NewRows(nextMemberId, team, us, isAdmin);
      var n := |members|;
      var all := members + rows;
      forall i, j | 0 <= i < j < |all|
        ensures all[i].id != all[j].id
        ensures all[i].user != all[j].user || all[i].team != all[j].team
      {
        if j >= n {
          if i < n {
            assert all[i] in members;
            assert !IsMember(members, us[j - n], team);
          }
        }
      }
      members := all;
      nextMemberId := nextMemberId + |us|;
    }

    /** `TeamMember.objects.bulk_update(objs, ["is_admin"])`, the new flags keyed by row id. */
    method SetAdminFlags(flags: map<MemberId, bool>)
      requires Valid()
      modifies this
      ensures Valid()
      ensures members == WithAdminFlags(old(members), flags)
      ensures users == old(users) && teams == old(teams) && projects == old(projects)
      ensures nextTeamId == old(nextTeamId) && nextMemberId == old(nextMemberId)
      ensures nextProjectId == old(nextProjectId)
    {
      var updated := WithAdminFlags(members, flags);
      forall m | m in updated
        ensures 0 < m.id < nextMemberId && UserExists(users, m.user) && m.team in teams
      {
        var k :| 0 <= k < |updated| && updated[k] == m;
        assert members[k] in members;
      }
      members := updated;
    }

    /** `instance.delete()` of the membership row with key `id`. */
    method DeleteMember(id: MemberId)
      requires Valid()
      modifies this
      ensures Valid()
      ensures members == Keep(old(members), (m: TeamMember) => m.id != id)
      ensures users == old(users) && teams == old(teams) && projects == old(projects)
      ensures nextTeamId == old(nextTeamId) && nextMemberId == old(nextMemberId)
      ensures nextProjectId == old(nextProjectId)
    {
      members := Keep(members, (m: TeamMember) => m.id != id);
    }

    /** `instance.delete()` of a team, cascading to its memberships and its projects. */
    method DeleteTeam(id: TeamId)
      requires Valid()
      modifies this
      ensures Valid()
      ensures teams == old(teams) - {id}
      ensures members == Keep(old(members), (m: TeamMember) => m.team != id)
      ensures projects == map p | p in old(projects) && old(projects)[p].team != id :: old(projects)[p]
      ensures users == old(users)
      ensures nextTeamId == old(nextTeamId) && nextMemberId == old(nextMemberId)
      ensures nextProjectId == old(nextProjectId)
    {
      teams := teams - {id};
      members := Keep(members, (m: TeamMember) => m.team != id);
      projects := map p | p in projects && projects[p].team != id :: projects[p];
    }

    /** `instance.save()` of a team whose fields were reassigned. */
    method SaveTeam(id: TeamId, team: Team)
      requires Valid()
      requires id in teams
      modifies this
      ensures Valid()
      ensures teams == old(teams)[id := team]
      ensures users == old(users) && members == old(members) && projects == old(projects)
      ensures nextTeamId == old(nextTeamId) && nextMemberId == old(nextMemberId)
      ensures nextProjectId == old(nextProjectId)
    {
      teams := teams[id := team];
    }

    /** `Project.objects.create(...)` */
    method InsertProject(project: Project) returns (id: ProjectId)
      requires Valid()
      requires project.team in teams
      modifies this
      ensures Valid()
      ensures id == old(nextProjectId) && id !in old(projects)
      ensures projects == old(projects)[id := project]
      ensures users == old(users) && teams == old(teams) && members == old(members)
      ensures nextTeamId == old(nextTeamId) && nextMemberId == old(nextMemberId)
    {
      id := nextProjectId;
      projects := projects[id := project];
      nextProjectId := nextProjectId + 1;
    }
  }
}

=== FILE: team_permissions.dfy ===
/**
 * The object-level permissions of team/permissions.py. Each is a pure function of the
 * request method, the requesting user's membership of the team and the team's policy.
 * Neither catches the membership lookup's `DoesNotExist`, so a non-member reaching a
 * PATCH, PUT or DELETE check makes the check fail with that exception rather than
 * answer False; `LookupFailed` stands for it.
 */
module TeamPermissions {
  import opened Http
  import opened Models
  import opened AccessRules

  datatype Decision = Grant | Refuse | LookupFailed

  /** A decision read as a verdict of the rule table. */
  function AsVerdict(d: Decision): Verdict {
    match d
    case Grant => Allowed
    case Refuse => InsufficientRole
    case LookupFailed => NotMember
  }

  /** `IsAllowedToEdit.has_object_permission`, the team being `teamId` with fields `team`. */
  function IsAllowedToEdit(verb: HttpMethod, members: seq<TeamMember>, user: UserId,
                           teamId: TeamId, team: Team): Decision
  {
    if verb != PATCH && verb != PUT then Grant
    else
      match FindMember(members, user, teamId)
      case None => LookupFailed
      case Some(member) =>
        if member.isAdmin then Grant
        else if team.publicEdit == All then Grant
        else Refuse
  }

  /** `IsAllowedToDelete.has_object_permission`. */
  function IsAllowedToDelete(verb: HttpMethod, members: seq<TeamMember>, user: UserId,
                             teamId: TeamId, team: Team): Decision
  {
    if verb != DELETE then Grant
    else
      match FindMember(members, user, teamId)
      case None => LookupFailed
      case Some(member) => if member.isAdmin then Grant else Refuse
  }

  /**
   * Edit lets every method but PATCH and PUT through untouched; on PATCH and PUT it is the
   * rule table's "edit team information" rule.
   */
  lemma IsAllowedToEditFollowsRules(verb: HttpMethod, members: seq<TeamMember>, user: UserId,
                                    teamId: TeamId, team: Team)
    ensures verb != PATCH && verb != PUT ==> IsAllowedToEdit(verb, members, user, teamId, team) == Grant
    ensures verb == PATCH || verb == PUT ==>
      AsVerdict(IsAllowedToEdit(verb, members, user, teamId, team))
        == Check(EditTeamInfo, RoleIn(members, user, teamId), team.publicEdit)
  {
  }

  /**
   * For a member's PATCH or PUT: an admin is granted whatever `public_edit` says, a plain
   * member is granted exactly when `public_edit` is ALL.
   */
  lemma {:induction false} EditDecisionOfMember(verb: HttpMethod, members: seq<TeamMember>, i: int, team: Team)
    requires UniqueMemberships(members)
    requires 0 <= i < |members|
    requires verb == PATCH || verb == PUT
    ensures members[i].isAdmin ==>
      IsAllowedToEdit(verb, members, members[i].user, members[i].team, team) == Grant
    ensures !members[i].isAdmin ==>
      (IsAllowedToEdit(verb, members, members[i].user, members[i].team, team) == Grant <==>
       team.publicEdit == All)
    ensures IsAllowedToEdit(verb, members, members[i].user, members[i].team, team) != LookupFailed
  {
    FindMemberFindsRow(members, i);
  }

  /**
   * Delete lets every method but DELETE through; on DELETE it is the rule table's
   * "delete team" rule: admins only.
   */
  lemma IsAllowedToDeleteFollowsRules(verb: HttpMethod, members: seq<TeamMember>, user: UserId,
                                      teamId: TeamId, team: Team)
    ensures verb != DELETE ==> IsAllowedToDelete(verb, members, user, teamId, team) == Grant
    ensures verb == DELETE ==>
      AsVerdict(IsAllowedToDelete(verb, members, user, teamId, team))
        == Check(DeleteTeam, RoleIn(members, user, teamId), team.publicEdit)
  {
  }

  /** A member's DELETE is granted exactly when the member is an admin. */
  lemma {:induction false} DeleteDecisionOfMember(members: seq<TeamMember>, i: int, team: Team)
    requires UniqueMemberships(members)
    requires 0 <= i < |members|
    ensures IsAllowedToDelete(DELETE, members, members[i].user, members[i].team, team) ==
      (if members[i].isAdmin then Grant else Refuse)
  {
    FindMemberFindsRow(members, i);
  }

  /** Neither policy of the team, `privacy_edit` included, takes part in the delete decision. */
  lemma DeleteIgnoresPolicies(verb: HttpMethod, members: seq<TeamMember>, user: UserId,
                              teamId: TeamId, team: Team, publicEdit: EditPolicy, privacyEdit: EditPolicy)
    ensures IsAllowedToDelete(verb, members, user, teamId, team)
         == IsAllowedToDelete(verb, members, user, teamId,
                              team.(publicEdit := publicEdit, privacyEdit := privacyEdit))
  {
  }
}

=== FILE: team_serializers.dfy ===
/**
 * team/serializers.py: adding members by email in one batch, updating the admin flags of
 * several members in one batch, and the team serializer's create, update, admin check and
 * representation. Each loop of the source is a method proved equal to a function that
 * specifies it; the lemmas say what those functions mean.
 */
module TeamSerializers {
  import opened Wrappers
  import opened Models
  import opened Store
  import opened AccessRules

  /**
   * Why a serializer call failed. The first five are `ValidationError`s, which the
   * framework answers with 400; the last four are exceptions nobody catches (500).
   */
  datatype Failure =
    | TeamNotSpecified         // "Team object should be specified for adding members"
    | NoUserWithEmail(email: string)
    | IdMissing                // "id field is missing"
    | NoSuchMember(id: int)
    | SettingsForAdminsOnly    // "Only team admins are allowed to change these settings"
    | EmptyBatch               // IndexError on `validated_data[0]`
    | UserFieldMissing         // KeyError on `item.pop("user")`
    | MemberLookupFailed       // TeamMember.DoesNotExist
    | DuplicateMembership      // IntegrityError from `bulk_create` on the (user, team) constraint
  {
    predicate IsValidationError() {
      match this
      case TeamNotSpecified => true
      case NoUserWithEmail(_) => true
      case IdMissing => true
      case NoSuchMember(_) => true
      case SettingsForAdminsOnly => true
      case _ => false
    }
  }

  // ---------------------------------------------------------------------------
  // TeamMemberListSerializer.create: add members by email
  // ---------------------------------------------------------------------------

  /** One item of the add payload; `email` is None when the item names no email. */
  datatype AddItem = AddItem(email: Option<string>)

  /** The user an item names, if it names an email that some user holds. */
  function ItemUser(users: seq<User>, item: AddItem): Option<UserId> {
    match item.email
    case None => None
    case Some(email) => UserByEmail(users, email)
  }

  /**
   * The add loop over `items`, having queued `queued` so far: a user is queued unless
   * already a member of `team` or already queued; an item without an email or with an
   * unknown email stops the loop.
   */
  function Queue(users: seq<User>, members: seq<TeamMember>, team: TeamId,
                 items: seq<AddItem>, queued: seq<UserId>): Result<seq<UserId>, Failure>
  {
    if items == [] then Ok(queued)
    else
      match items[0].email
      case None => Err(UserFieldMissing)
      case Some(email) =>
        match UserByEmail(users, email)
        case None => Err(NoUserWithEmail(email))
        case Some(u) =>
          var next := if IsMember(members, u, team) || u in queued then queued else queued + [u];
          Queue(users, members, team, items[1..], next)
  }

  /**
   * The add loop as written: only the stored memberships are consulted, not the users
   * queued earlier in the same batch.
   */
  function QueueAsWritten(users: seq<User>, members: seq<TeamMember>, team: TeamId,
                          items: seq<AddItem>, queued: seq<UserId>): Result<seq<UserId>, Failure>
  {
    if items == [] then Ok(queued)
    else
      match items[0].email
      case None => Err(UserFieldMissing)
      case Some(email) =>
        match UserByEmail(users, email)
        case None => Err(NoUserWithEmail(email))
        case Some(u) =>
          var next := if IsMember(members, u, team) then queued else queued + [u];
          QueueAsWritten(users, members, team, items[1..], next)
  }

  /**
   * A batch naming the same non-member twice makes the loop as written queue that user
   * twice; inserting the two rows breaks the (user, team) uniqueness, so the store refuses
   * the insert with an integrity error that nothing catches.
   */
  lemma RepeatedEmailIsQueuedTwice()
    ensures QueueAsWritten([User(7, "ann@example.com", "ann")], [], 1,
                           [AddItem(Some("ann@example.com")), AddItem(Some("ann@example.com"))], [])
            == Ok([7, 7])
    ensures !UniqueMemberships(NewRows(1, 1, [7, 7], false))
  {
    var users := [User(7, "ann@example.com", "ann")];
    var item := AddItem(Some("ann@example.com"));
    assert UserByEmail(users, "ann@example.com") == Some(7);
    assert !IsMember([], 7, 1);
    assert [item, item][1..] == [item];
    var none: seq<UserId> := [];
    assert none + [7] == [7];
    assert QueueAsWritten(users, [], 1, [item, item], none) == QueueAsWritten(users, [], 1, [item], [7]);
    assert [item][1..] == [];
    assert [7] + [7] == [7, 7];
    assert QueueAsWritten(users, [], 1, [item], [7]) == QueueAsWritten(users, [], 1, [], [7, 7]);
    var rows := NewRows(1, 1, [7, 7], false);
    assert rows[0].user == rows[1].user && rows[0].team == rows[1].team;
  }

  /** Two items name the same user, who is not yet a member of `team`. */
  predicate NamesNonMemberTwice(users: seq<User>, members: seq<TeamMember>, team: TeamId, items: seq<AddItem>) {
    exists i, j :: 0 <= i < j < |items| && ItemUser(users, items[i]).Some? &&
      ItemUser(users, items[j]) == ItemUser(users, items[i]) &&
      !IsMember(members, ItemUser(users, items[i]).value, team)
  }

  /** Some user occurs twice in `us`. */
  predicate Repeats(us: seq<UserId>) {
    exists k, l :: 0 <= k < l < |us| && us[k] == us[l]
  }

  /** The users the items name who are not members of `team`, in item order, repeats kept. */
  function NamedNonMembers(users: seq<User>, members: seq<TeamMember>, team: TeamId,
                           items: seq<AddItem>): seq<UserId>
  {
    if items == [] then []
    else
      var rest := NamedNonMembers(users, members, team, items[1..]);
      match ItemUser(users, items[0])
      case None => rest
      case Some(u) => if IsMember(members, u, team) then rest else [u] + rest
  }

  lemma {:induction false} NamedNonMembersHolds(users: seq<User>, members: seq<TeamMember>, team: TeamId,
                                                items: seq<AddItem>)
    ensures forall v :: v in NamedNonMembers(users, members, team, items) <==>
      exists i :: 0 <= i < |items| && ItemUser(users, items[i]) == Some(v) && !IsMember(members, v, team)
  {
    if items != [] {
      NamedNonMembersHolds(users, members, team, items[1..]);
      forall i | 1 <= i < |items| ensures items[i] == items[1..][i - 1] { }
      forall v | exists i :: 0 <= i < |items| && ItemUser(users, items[i]) == Some(v) && !IsMember(members, v, team)
        ensures v in NamedNonMembers(users, members, team, items)
      {
        var i :| 0 <= i < |items| && ItemUser(users, items[i]) == Some(v) && !IsMember(members, v, team);
        if i > 0 {
          assert ItemUser(users, items[1..][i - 1]) == Some(v);
        }
      }
    }
  }

  lemma RepeatsCons(u: UserId, rest: seq<UserId>)
    ensures Repeats([u] + rest) <==> u in rest || Repeats(rest)
  {
    var s := [u] + rest;
    if u in rest {
      var l :| 0 <= l < |rest| && rest[l] == u;
      assert s[0] == s[l + 1];
    }
    if Repeats(rest) {
      var k, l :| 0 <= k < l < |rest| && rest[k] == rest[l];
      assert s[k + 1] == s[l + 1];
    }
    if Repeats(s) {
      var k, l :| 0 <= k < l < |s| && s[k] == s[l];
      if k == 0 {
        assert rest[l - 1] == u;
      } else {
        assert rest[k - 1] == rest[l - 1];
      }
    }
  }

  /** The named non-members repeat a user exactly when two items name the same non-member. */
  lemma {:induction false} NamedNonMembersRepeats(users: seq<User>, members: seq<TeamMember>, team: TeamId,
                                                  items: seq<AddItem>)
    ensures Repeats(NamedNonMembers(users, members, team, items)) <==> NamesNonMemberTwice(users, members, team, items)
  {
    if items != [] {
      var tail := items[1..];
      var rest := NamedNonMembers(users, members, team, tail);
      NamedNonMembersRepeats(users, members, team, tail);
      NamedNonMembersHolds(users, members, team, tail);
      forall i | 1 <= i < |items| ensures items[i] == tail[i - 1] { }
      if NamesNonMemberTwice(users, members, team, tail) {
        var i, j :| 0 <= i < j < |tail| && ItemUser(users, tail[i]).Some? &&
          ItemUser(users, tail[j]) == ItemUser(users, tail[i]) && !IsMember(members, ItemUser(users, tail[i]).value, team);
        assert ItemUser(users, items[i + 1]) == ItemUser(users, tail[i]);
        assert ItemUser(users, items[j + 1]) == ItemUser(users, tail[j]);
      }
      var head := ItemUser(users, items[0]);
      if NamesNonMemberTwice(users, members, team, items) {
        var i, j :| 0 <= i < j < |items| && ItemUser(users, items[i]).Some? &&
          ItemUser(users, items[j]) == ItemUser(users, items[i]) && !IsMember(members, ItemUser(users, items[i]).value, team);
        if i == 0 {
          assert ItemUser(users, tail[j - 1]) == head;
          assert head.value in rest;
        } else {
          assert ItemUser(users, tail[i - 1]) == ItemUser(users, items[i]);
          assert ItemUser(users, tail[j - 1]) == ItemUser(users, items[j]);
          assert NamesNonMemberTwice(users, members, team, tail);
        }
      }
      if head.Some? && !IsMember(members, head.value, team) {
        RepeatsCons(head.value, rest);
        if head.value in rest {
          var j :| 0 <= j < |tail| && ItemUser(users, tail[j]) == Some(head.value) && !IsMember(members, head.value, team);
          assert ItemUser(users, items[j + 1]) == head;
        }
      }
    }
  }

  /** The loop as written queues exactly the named non-members, in order, repeats kept. */
  lemma {:induction false} QueueAsWrittenIsNamed(users: seq<User>, members: seq<TeamMember>, team: TeamId,
                                                 items: seq<AddItem>, queued: seq<UserId>, r: seq<UserId>)
    requires QueueAsWritten(users, members, team, items, queued) == Ok(r)
    ensures r == queued + NamedNonMembers(users, members, team, items)
  {
    if items == [] {
      assert queued + [] == queued;
    } else {
      var u := ItemUser(users, items[0]).value;
      var rest := NamedNonMembers(users, members, team, items[1..]);
      if IsMember(members, u, team) {
        QueueAsWrittenIsNamed(users, members, team, items[1..], queued, r);
      } else {
        QueueAsWrittenIsNamed(users, members, team, items[1..], queued + [u], r);
        assert (queued + [u]) + rest == queued + ([u] + rest);
      }
    }
  }

  /** The loop as written and the corrected loop stop on the same item with the same error. */
  lemma {:induction false} QueueAsWrittenFailsLikeQueue(users: seq<User>, members: seq<TeamMember>, team: TeamId,
                                                        items: seq<AddItem>, written: seq<UserId>, queued: seq<UserId>)
    ensures QueueAsWritten(users, members, team, items, written).Err? <==> Queue(users, members, team, items, queued).Err?
    ensures QueueAsWritten(users, members, team, items, written).Err? ==>
      QueueAsWritten(users, members, team, items, written).error == Queue(users, members, team, items, queued).error
  {
    if items != [] && ItemUser(users, items[0]).Some? {
      var u := ItemUser(users, items[0]).value;
      var nextWritten := if IsMember(members, u, team) then written else written + [u];
      var nextQueued := if IsMember(members, u, team) || u in queued then queued else queued + [u];
      QueueAsWrittenFailsLikeQueue(users, members, team, items[1..], nextWritten, nextQueued);
    }
  }

  /**
   * Unless two items name the same non-member, the loop as written computes what the
   * corrected loop does.
   */
  lemma {:induction false} QueueAgreesWithoutRepeat(users: seq<User>, members: seq<TeamMember>, team: TeamId,
                                                    items: seq<AddItem>, queued: seq<UserId>)
    requires forall i :: (0 <= i < |items| && ItemUser(users, items[i]).Some? &&
                          !IsMember(members, ItemUser(users, items[i]).value, team)) ==>
      ItemUser(users, items[i]).value !in queued
    requires !NamesNonMemberTwice(users, members, team, items)
    ensures Queue(users, members, team, items, queued) == QueueAsWritten(users, members, team, items, queued)
  {
    if items != [] && ItemUser(users, items[0]).Some? {
      var u := ItemUser(users, items[0]).value;
      var tail := items[1..];
      var next := if IsMember(members, u, team) then queued else queued + [u];
      forall i | 0 <= i < |tail| ensures tail[i] == items[i + 1] { }
      forall i, j | 0 <= i < j < |tail| && ItemUser(users, tail[i]).Some? && ItemUser(users, tail[j]) == ItemUser(users, tail[i])
        ensures IsMember(members, ItemUser(users, tail[i]).value, team)
      {
        assert ItemUser(users, items[i + 1]) == ItemUser(users, tail[i]);
        assert ItemUser(users, items[j + 1]) == ItemUser(users, tail[j]);
      }
      forall i | 0 <= i < |tail| && ItemUser(users, tail[i]).Some? && !IsMember(members, ItemUser(users, tail[i]).value, team)
        ensures ItemUser(users, tail[i]).value !in next
      {
        assert ItemUser(users, items[i + 1]) == ItemUser(users, tail[i]);
      }
      QueueAgreesWithoutRepeat(users, members, team, tail, next);
    }
  }

  /**
   * `create` as written, up to a successful insert: the batch's own checks, the loop, and
   * the (user, team) constraint that `bulk_create` enforces on the queued rows.
   */
  function AddPlanAsWritten(users: seq<User>, members: seq<TeamMember>, team: Option<TeamId>,
                            items: seq<AddItem>): Result<seq<UserId>, Failure>
  {
    if items == [] then Err(EmptyBatch)
    else if team.None? then Err(TeamNotSpecified)
    else
      match QueueAsWritten(users, members, team.value, items, [])
      case Err(e) => Err(e)
      case Ok(us) => if Repeats(us) then Err(DuplicateMembership) else Ok(us)
  }

  /** The whole of `create` up to the insert: the batch's own checks, then the loop. */
  function AddPlan(users: seq<User>, members: seq<TeamMember>, team: Option<TeamId>,
                   items: seq<AddItem>): Result<seq<UserId>, Failure>
  {
    if items == [] then Err(EmptyBatch)
    else if team.None? then Err(TeamNotSpecified)
    else Queue(users, members, team.value, items, [])
  }

  /** Users that may be inserted as new members of `team` in one `bulk_create`. */
  predicate Insertable(users: seq<User>, members: seq<TeamMember>, team: TeamId, us: seq<UserId>) {
    && (forall k :: 0 <= k < |us| ==> UserExists(users, us[k]) && !IsMember(members, us[k], team))
    && (forall k, l :: 0 <= k < l < |us| ==> us[k] != us[l])
  }

  lemma {:induction false} QueueFailsIff(users: seq<User>, members: seq<TeamMember>, team: TeamId,
                                         items: seq<AddItem>, queued: seq<UserId>)
    ensures Queue(users, members, team, items, queued).Err? <==>
      exists i :: 0 <= i < |items| && ItemUser(users, items[i]).None?
  {
    if items != [] && ItemUser(users, items[0]).Some? {
      var u := ItemUser(users, items[0]).value;
      var next := if IsMember(members, u, team) || u in queued then queued else queued + [u];
      QueueFailsIff(users, members, team, items[1..], next);
      if exists i :: 0 <= i < |items| && ItemUser(users, items[i]).None? {
        var i :| 0 <= i < |items| && ItemUser(users, items[i]).None?;
        assert items[1..][i - 1] == items[i];
      }
      if exists i :: 0 <= i < |items[1..]| && ItemUser(users, items[1..][i]).None? {
        var i :| 0 <= i < |items[1..]| && ItemUser(users, items[1..][i]).None?;
        assert items[i + 1] == items[1..][i];
      }
    }
  }

  lemma {:induction false} QueueSound(users: seq<User>, members: seq<TeamMember>, team: TeamId,
                                      items: seq<AddItem>, queued: seq<UserId>, r: seq<UserId>)
    requires Insertable(users, members, team, queued)
    requires Queue(users, members, team, items, queued) == Ok(r)
    ensures Insertable(users, members, team, r)
    ensures queued <= r
    ensures forall i :: 0 <= i < |items| ==>
      ItemUser(users, items[i]).Some? &&
      (ItemUser(users, items[i]).value in r || IsMember(members, ItemUser(users, items[i]).value, team))
    ensures forall u :: u in r ==> u in queued || exists i :: 0 <= i < |items| && ItemUser(users, items[i]) == Some(u)
  {
    if items != [] {
      var u := ItemUser(users, items[0]).value;
      var next := if IsMember(members, u, team) || u in queued then queued else queued + [u];
      assert UserExists(users, u);
      QueueSound(users, members, team, items[1..], next, r);
      forall i | 1 <= i < |items| ensures items[i] == items[1..][i - 1] { }
      assert u in next || IsMember(members, u, team);
      forall v | v in r ensures v in queued || exists i :: 0 <= i < |items| && ItemUser(users, items[i]) == Some(v) {
        if v !in next {
          var i :| 0 <= i < |items[1..]| && ItemUser(users, items[1..][i]) == Some(v);
          assert items[i + 1] == items[1..][i];
        } else if v !in queued {
          assert v == u && ItemUser(users, items[0]) == Some(v);
        }
      }
    }
  }

  /**
   * The add operation, up to the insert: it fails exactly on an empty batch, a missing team
   * or an item whose email is absent or unknown; otherwise it queues, once each, exactly the
   * named users who are not yet members, and those may all be inserted together.
   */
  lemma AddPlanMeaning(users: seq<User>, members: seq<TeamMember>, team: Option<TeamId>, items: seq<AddItem>)
    ensures AddPlan(users, members, team, items).Err? <==>
      items == [] || team.None? || exists i :: 0 <= i < |items| && ItemUser(users, items[i]).None?
    ensures AddPlan(users, members, team, items).Ok? ==>
      var us := AddPlan(users, members, team, items).value;
      && Insertable(users, members, team.value, us)
      && (forall i :: 0 <= i < |items| ==>
            ItemUser(users, items[i]).value in us || IsMember(members, ItemUser(users, items[i]).value, team.value))
      && (forall u :: u in us ==> exists i :: 0 <= i < |items| && ItemUser(users, items[i]) == Some(u))
  {
    if items != [] && team.Some? {
      QueueFailsIff(users, members, team.value, items, []);
      if Queue(users, members, team.value, items, []).Ok? {
        QueueSound(users, members, team.value, items, [], Queue(users, members, team.value, items, []).value);
      }
    }
  }

  /** The add loop stops on a missing email with a crash and on an unknown email with a validation error. */
  lemma {:induction false} QueueErrors(users: seq<User>, members: seq<TeamMember>, team: TeamId,
                                       items: seq<AddItem>, queued: seq<UserId>)
    ensures Queue(users, members, team, items, queued).Err? ==>
      (Queue(users, members, team, items, queued).error == UserFieldMissing <==>
         exists i :: 0 <= i < |items| && items[i].email.None? &&
           forall j :: 0 <= j < i ==> ItemUser(users, items[j]).Some?)
    ensures Queue(users, members, team, items, queued).Err? ==>
      Queue(users, members, team, items, queued).error.IsValidationError() ==
      (Queue(users, members, team, items, queued).error != UserFieldMissing)
  {
    if items != [] && ItemUser(users, items[0]).Some? {
      var u := ItemUser(users, items[0]).value;
      var next := if IsMember(members, u, team) || u in queued then queued else queued + [u];
      QueueErrors(users, members, team, items[1..], next);
      if exists i :: 0 <= i < |items| && items[i].email.None? && forall j :: 0 <= j < i ==> ItemUser(users, items[j]).Some? {
        var i :| 0 <= i < |items| && items[i].email.None? && forall j :: 0 <= j < i ==> ItemUser(users, items[j]).Some?;
        assert i != 0;
        assert items[1..][i - 1] == items[i];
        assert forall j :: 0 <= j < i - 1 ==> items[1..][j] == items[j + 1];
      }
      if exists i :: 0 <= i < |items[1..]| && items[1..][i].email.None? &&
                     forall j :: 0 <= j < i ==> ItemUser(users, items[1..][j]).Some? {
        var i :| 0 <= i < |items[1..]| && items[1..][i].email.None? &&
                 forall j :: 0 <= j < i ==> ItemUser(users, items[1..][j]).Some?;
        assert items[i + 1] == items[1..][i];
        forall j | 0 <= j < i + 1 ensures ItemUser(users, items[j]).Some? {
          if j > 0 {
            assert items[j] == items[1..][j - 1];
          }
        }
      }
    } else if items != [] {
      if items[0].email.Some? {
        forall i | 0 <= i < |items| && items[i].email.None? ensures exists j :: 0 <= j < i && ItemUser(users, items[j]).None? {
          assert i != 0;
          assert ItemUser(users, items[0]).None?;
        }
      }
    }
  }

  /**
   * The add operation as written fails with an integrity error exactly when every email is
   * known and two items name the same non-member; in every other case it is the corrected
   * operation.
   */
  lemma AddPlanAsWrittenMeaning(users: seq<User>, members: seq<TeamMember>, team: Option<TeamId>, items: seq<AddItem>)
    ensures AddPlanAsWritten(users, members, team, items) == Err(DuplicateMembership) <==>
      && items != [] && team.Some?
      && (forall i :: 0 <= i < |items| ==> ItemUser(users, items[i]).Some?)
      && NamesNonMemberTwice(users, members, team.value, items)
    ensures AddPlanAsWritten(users, members, team, items) != Err(DuplicateMembership) ==>
      AddPlanAsWritten(users, members, team, items) == AddPlan(users, members, team, items)
  {
    if items != [] && team.Some? {
      var t := team.value;
      QueueAsWrittenFailsLikeQueue(users, members, t, items, [], []);
      QueueFailsIff(users, members, t, items, []);
      QueueErrors(users, members, t, items, []);
      var written := QueueAsWritten(users, members, t, items, []);
      if written.Ok? {
        QueueAsWrittenIsNamed(users, members, t, items, [], written.value);
        assert [] + NamedNonMembers(users, members, t, items) == NamedNonMembers(users, members, t, items);
        NamedNonMembersRepeats(users, members, t, items);
        if !NamesNonMemberTwice(users, members, t, items) {
          QueueAgreesWithoutRepeat(users, members, t, items, []);
        }
      }
    }
  }

  /** The loop of `create`, collecting the users to add; only stored memberships are consulted. */
  method CollectNewMembers(users: seq<User>, members: seq<TeamMember>, team: TeamId, items: seq<AddItem>)
    returns (r: Result<seq<UserId>, Failure>)
    ensures r == QueueAsWritten(users, members, team, items, [])
  {
    var queued: seq<UserId> := [];
    var i := 0;
    while i < |items|
      invariant 0 <= i <= |items|
      invariant QueueAsWritten(users, members, team, items, []) == QueueAsWritten(users, members, team, items[i..], queued)
    {
      assert items[i..][1..] == items[i + 1..];
      var email := items[i].email;
      if email.None? {
        return Err(UserFieldMissing);
      }
      var user := UserByEmail(users, email.value);
      if user.None? {
        return Err(NoUserWithEmail(email.value));
      }
      var u := user.value;
      if !IsMember(members, u, team) {
        queued := queued + [u];
      }
      i := i + 1;
    }
    assert items[i..] == [];
    return Ok(queued);
  }

  /**
   * `TeamMemberListSerializer.create`: all of the batch is added, or none of it. A batch
   * that queues a user twice makes `bulk_create` fail on the (user, team) constraint; the
   * insert is atomic, so nothing is written.
   */
  method AddMembers(db: Database, team: Option<TeamId>, items: seq<AddItem>)
    returns (r: Result<seq<TeamMember>, Failure>)
    requires db.Valid()
    requires team.Some? ==> team.value in db.teams
    modifies db
    ensures db.Valid()
    ensures db.users == old(db.users) && db.teams == old(db.teams) && db.projects == old(db.projects)
    ensures r.Err? <==> AddPlanAsWritten(old(db.users), old(db.members), team, items).Err?
    ensures r.Err? ==> r.error == AddPlanAsWritten(old(db.users), old(db.members), team, items).error
    ensures r.Err? ==> db.members == old(db.members)
    ensures r.Ok? ==>
      && r.value == NewRows(old(db.nextMemberId), team.value,
                            AddPlanAsWritten(old(db.users), old(db.members), team, items).value, false)
      && db.members == old(db.members) + r.value
    ensures r.Ok? ==> forall m :: m in r.value ==> !m.isAdmin && Some(m.team) == team
  {
    if items == [] {
      return Err(EmptyBatch);
    }
    if team.None? {
      return Err(TeamNotSpecified);
    }
    var queued := CollectNewMembers(db.users, db.members, team.value, items);
    if queued.Err? {
      return Err(queued.error);
    }
    if exists k, l :: 0 <= k < l < |queued.value| && queued.value[k] == queued.value[l] {
      return Err(DuplicateMembership);
    }
    AddPlanAsWrittenMeaning(db.users, db.members, team, items);
    AddPlanMeaning(db.users, db.members, team, items);
    var rows := db.InsertMembers(team.value, queued.value, false);
    return Ok(rows);
  }

  // ---------------------------------------------------------------------------
  // TeamMemberListSerializer.update: set the admin flags of several members
  // ---------------------------------------------------------------------------

  /** One item of the update payload; either key may be absent. */
  datatype UpdateItem = UpdateItem(id: Option<int>, isAdmin: Option<bool>)

  /** `not item.get("id", None)` is false: the id is present and not 0. */
  predicate HasId(item: UpdateItem) {
    item.id.Some? && item.id.value != 0
  }

  function Key(item: UpdateItem): int {
    item.id.GetOr(0)
  }

  /** `data_mapping` after the first loop: every id mapped to the last item naming it. */
  function DataMapping(items: seq<UpdateItem>): map<int, UpdateItem> {
    if items == [] then map[]
    else
      var last := items[|items| - 1];
      DataMapping(items[..|items| - 1])[Key(last) := last]
  }

  /** The keys of `data_mapping` in insertion order: the ids in order of first appearance. */
  function KeyOrder(items: seq<UpdateItem>): seq<int> {
    if items == [] then []
    else
      var order := KeyOrder(items[..|items| - 1]);
      var id := Key(items[|items| - 1]);
      if id in order then order else order + [id]
  }

  /** `data.get("is_admin", False)` for the item stored under `id`. */
  function NewFlag(data: map<int, UpdateItem>, id: int): bool {
    if id in data then data[id].isAdmin.GetOr(false) else false
  }

  /** The second loop, over `order` from `objs` on: look up each member and set its flag. */
  function Resolve(teamMembers: seq<TeamMember>, order: seq<int>, data: map<int, UpdateItem>,
                   objs: seq<TeamMember>): Result<seq<TeamMember>, Failure>
  {
    if order == [] then Ok(objs)
    else
      match MemberById(teamMembers, order[0])
      case None => Err(NoSuchMember(order[0]))
      case Some(m) => Resolve(teamMembers, order[1..], data, objs + [m.(isAdmin := NewFlag(data, order[0]))])
  }

  /** `update` up to `bulk_update`: the members to write back with their new flags. */
  function AdminUpdatePlan(teamMembers: seq<TeamMember>, items: seq<UpdateItem>): Result<seq<TeamMember>, Failure> {
    if exists i :: 0 <= i < |items| && !HasId(items[i]) then Err(IdMissing)
    else Resolve(teamMembers, KeyOrder(items), DataMapping(items), [])
  }

  /** The flags `bulk_update` writes, keyed by member id. */
  function FlagsOf(objs: seq<TeamMember>): map<MemberId, bool> {
    if objs == [] then map[]
    else
      var last := objs[|objs| - 1];
      FlagsOf(objs[..|objs| - 1])[last.id := last.isAdmin]
  }

  lemma {:induction false} DataMappingKeys(items: seq<UpdateItem>)
    ensures forall id :: id in DataMapping(items) <==> id in KeyOrder(items)
    ensures forall id :: id in KeyOrder(items) <==> exists i :: 0 <= i < |items| && Key(items[i]) == id
    ensures forall k, l :: 0 <= k < l < |KeyOrder(items)| ==> KeyOrder(items)[k] != KeyOrder(items)[l]
  {
    if items != [] {
      var init := items[..|items| - 1];
      DataMappingKeys(init);
      forall i | 0 <= i < |init| ensures init[i] == items[i] { }
      forall id | id in KeyOrder(items) ensures exists i :: 0 <= i < |items| && Key(items[i]) == id {
        if id in KeyOrder(init) {
          var i :| 0 <= i < |init| && Key(init[i]) == id;
          assert Key(items[i]) == id;
        } else {
          assert Key(items[|items| - 1]) == id;
        }
      }
    }
  }

  /** The item stored under an id is the last item naming it. */
  lemma {:induction false} DataMappingKeepsLast(items: seq<UpdateItem>, i: int)
    requires 0 <= i < |items|
    requires forall j :: i < j < |items| ==> Key(items[j]) != Key(items[i])
    ensures Key(items[i]) in DataMapping(items) && DataMapping(items)[Key(items[i])] == items[i]
  {
    if i < |items| - 1 {
      var init := items[..|items| - 1];
      assert init[i] == items[i];
      DataMappingKeepsLast(init, i);
    }
  }

  /**
   * The second loop fails on the first id that is not a membership of the team; otherwise it
   * appends each member, in order, with the flag of the item stored under its id.
   */
  lemma {:induction false} ResolveMeaning(teamMembers: seq<TeamMember>, order: seq<int>,
                                          data: map<int, UpdateItem>, objs: seq<TeamMember>)
    ensures Resolve(teamMembers, order, data, objs).Err? <==>
      exists k :: 0 <= k < |order| && MemberById(teamMembers, order[k]).None?
    ensures Resolve(teamMembers, order, data, objs).Err? ==>
      exists k :: 0 <= k < |order| && MemberById(teamMembers, order[k]).None? &&
        (forall j :: 0 <= j < k ==> MemberById(teamMembers, order[j]).Some?) &&
        Resolve(teamMembers, order, data, objs).error == NoSuchMember(order[k])
    ensures Resolve(teamMembers, order, data, objs).Ok? ==>
      var r := Resolve(teamMembers, order, data, objs).value;
      && |r| == |objs| + |order|
      && r[..|objs|] == objs
      && forall k :: 0 <= k < |order| ==>
           MemberById(teamMembers, order[k]).Some? &&
           r[|objs| + k] == MemberById(teamMembers, order[k]).value.(isAdmin := NewFlag(data, order[k]))
  {
    if order != [] {
      var found := MemberById(teamMembers, order[0]);
      if found.Some? {
        var next := objs + [found.value.(isAdmin := NewFlag(data, order[0]))];
        ResolveMeaning(teamMembers, order[1..], data, next);
        forall k | 1 <= k < |order| ensures order[k] == order[1..][k - 1] { }
        if exists k :: 0 <= k < |order[1..]| && MemberById(teamMembers, order[1..][k]).None? {
          var k :| 0 <= k < |order[1..]| && MemberById(teamMembers, order[1..][k]).None?;
          assert order[k + 1] == order[1..][k];
        }
        if Resolve(teamMembers, order, data, objs).Err? {
          var k :| 0 <= k < |order[1..]| && MemberById(teamMembers, order[1..][k]).None? &&
            (forall j :: 0 <= j < k ==> MemberById(teamMembers, order[1..][j]).Some?) &&
            Resolve(teamMembers, order[1..], data, next).error == NoSuchMember(order[1..][k]);
          assert order[k + 1] == order[1..][k];
          forall j | 0 <= j < k + 1 ensures MemberById(teamMembers, order[j]).Some? {
            if j > 0 {
              assert order[j] == order[1..][j - 1];
            }
          }
        }
        if Resolve(teamMembers, order, data, objs).Ok? {
          var r := Resolve(teamMembers, order, data, objs).value;
          assert r[..|next|] == next;
          assert r[..|objs|] == next[..|objs|];
          forall k | 0 <= k < |order|
            ensures r[|objs| + k] == MemberById(teamMembers, order[k]).value.(isAdmin := NewFlag(data, order[k]))
          {
            if k == 0 {
              assert r[|objs|] == r[..|next|][|objs|];
            }
          }
        }
      }
    }
  }

  lemma {:induction false} FlagsOfMeaning(objs: seq<TeamMember>)
    requires forall k, l :: 0 <= k < l < |objs| ==> objs[k].id != objs[l].id
    ensures forall id :: id in FlagsOf(objs) <==> exists k :: 0 <= k < |objs| && objs[k].id == id
    ensures forall k :: 0 <= k < |objs| ==> FlagsOf(objs)[objs[k].id] == objs[k].isAdmin
  {
    if objs != [] {
      var init := objs[..|objs| - 1];
      FlagsOfMeaning(init);
      forall k | 0 <= k < |init| ensures init[k] == objs[k] { }
    }
  }

  /**
   * When the bulk update fails: with "id missing" exactly when some item lacks a (non-zero)
   * id; otherwise exactly when some named id is not a membership of the team.
   */
  lemma AdminUpdateFailure(teamMembers: seq<TeamMember>, items: seq<UpdateItem>)
    ensures AdminUpdatePlan(teamMembers, items) == Err(IdMissing) <==>
      exists i :: 0 <= i < |items| && !HasId(items[i])
    ensures (forall i :: 0 <= i < |items| ==> HasId(items[i])) ==>
      (AdminUpdatePlan(teamMembers, items).Err? <==>
         exists i :: 0 <= i < |items| && MemberById(teamMembers, items[i].id.value).None?)
  {
    var order := KeyOrder(items);
    DataMappingKeys(items);
    ResolveMeaning(teamMembers, order, DataMapping(items), []);
    if forall i :: 0 <= i < |items| ==> HasId(items[i]) {
      if exists i :: 0 <= i < |items| && MemberById(teamMembers, items[i].id.value).None? {
        var i :| 0 <= i < |items| && MemberById(teamMembers, items[i].id.value).None?;
        assert Key(items[i]) in order;
      }
      if exists k :: 0 <= k < |order| && MemberById(teamMembers, order[k]).None? {
        var k :| 0 <= k < |order| && MemberById(teamMembers, order[k]).None?;
        assert order[k] in order;
        var i :| 0 <= i < |items| && Key(items[i]) == order[k];
        assert MemberById(teamMembers, items[i].id.value).None?;
      }
    }
  }

  /** Every failure of the bulk update is a validation error. */
  lemma AdminUpdateErrors(teamMembers: seq<TeamMember>, items: seq<UpdateItem>)
    requires AdminUpdatePlan(teamMembers, items).Err?
    ensures AdminUpdatePlan(teamMembers, items).error.IsValidationError()
  {
    ResolveMeaning(teamMembers, KeyOrder(items), DataMapping(items), []);
  }

  /** A successful plan, in terms of the two loops' results. */
  lemma AdminUpdateObjects(teamMembers: seq<TeamMember>, items: seq<UpdateItem>, objs: seq<TeamMember>)
    requires AdminUpdatePlan(teamMembers, items) == Ok(objs)
    ensures forall i :: 0 <= i < |items| ==> HasId(items[i])
    ensures |objs| == |KeyOrder(items)|
    ensures forall k :: 0 <= k < |objs| ==>
      && objs[k].id == KeyOrder(items)[k]
      && objs[k].isAdmin == NewFlag(DataMapping(items), objs[k].id)
      && MemberById(teamMembers, objs[k].id).Some?
      && objs[k] == MemberById(teamMembers, objs[k].id).value.(isAdmin := objs[k].isAdmin)
  {
    var order := KeyOrder(items);
    ResolveMeaning(teamMembers, order, DataMapping(items), []);
    forall k | 0 <= k < |objs|
      ensures objs[k].id == order[k]
      ensures objs[k] == MemberById(teamMembers, objs[k].id).value.(isAdmin := objs[k].isAdmin)
    {
      var m := MemberById(teamMembers, order[k]).value;
      assert objs[k] == m.(isAdmin := NewFlag(DataMapping(items), order[k]));
    }
  }

  /**
   * A successful bulk update writes back every named member and no member that is not
   * named.
   */
  lemma AdminUpdateRows(teamMembers: seq<TeamMember>, items: seq<UpdateItem>, objs: seq<TeamMember>)
    requires AdminUpdatePlan(teamMembers, items) == Ok(objs)
    ensures forall i :: 0 <= i < |items| ==> exists k :: 0 <= k < |objs| && Some(objs[k].id) == items[i].id
    ensures forall k :: 0 <= k < |objs| ==> exists i :: 0 <= i < |items| && Some(objs[k].id) == items[i].id
  {
    var order := KeyOrder(items);
    AdminUpdateObjects(teamMembers, items, objs);
    DataMappingKeys(items);
    forall i | 0 <= i < |items| ensures exists k :: 0 <= k < |objs| && Some(objs[k].id) == items[i].id {
      assert Key(items[i]) in order;
      var k :| 0 <= k < |order| && order[k] == Key(items[i]);
      assert Some(objs[k].id) == items[i].id;
    }
    forall k | 0 <= k < |objs| ensures exists i :: 0 <= i < |items| && Some(objs[k].id) == items[i].id {
      assert order[k] in order;
      var i :| 0 <= i < |items| && Key(items[i]) == order[k];
      assert Some(objs[k].id) == items[i].id;
    }
  }

  /** No member is written back twice. */
  lemma AdminUpdateRowsDistinct(teamMembers: seq<TeamMember>, items: seq<UpdateItem>, objs: seq<TeamMember>)
    requires AdminUpdatePlan(teamMembers, items) == Ok(objs)
    ensures forall k, l :: 0 <= k < l < |objs| ==> objs[k].id != objs[l].id
  {
    AdminUpdateObjects(teamMembers, items, objs);
    DataMappingKeys(items);
  }

  /**
   * The flag written for a member is that of the last item naming it, False when that item
   * omits `is_admin`: later items override earlier ones.
   */
  lemma AdminUpdateLastWins(teamMembers: seq<TeamMember>, items: seq<UpdateItem>, objs: seq<TeamMember>,
                            k: int, i: int)
    requires AdminUpdatePlan(teamMembers, items) == Ok(objs)
    requires 0 <= k < |objs| && 0 <= i < |items|
    requires items[i].id == Some(objs[k].id)
    requires forall j :: i < j < |items| ==> items[j].id != items[i].id
    ensures objs[k].isAdmin == items[i].isAdmin.GetOr(false)
  {
    AdminUpdateObjects(teamMembers, items, objs);
    DataMappingKeepsLast(items, i);
  }

  /** The two loops of `update`, computing the members to write back. */
  method CollectAdminUpdates(teamMembers: seq<TeamMember>, items: seq<UpdateItem>)
    returns (r: Result<seq<TeamMember>, Failure>)
    ensures r == AdminUpdatePlan(teamMembers, items)
  {
    var order: seq<int> := [];
    var data: map<int, UpdateItem> := map[];
    var i := 0;
    while i < |items|
      invariant 0 <= i <= |items|
      invariant forall k :: 0 <= k < i ==> HasId(items[k])
      invariant order == KeyOrder(items[..i])
      invariant data == DataMapping(items[..i])
    {
      var item := items[i];
      if !HasId(item) {
        return Err(IdMissing);
      }
      DataMappingKeys(items[..i]);
      assert items[..i + 1][..i] == items[..i];
      if item.id.value !in data {
        order := order + [item.id.value];
      }
      data := data[item.id.value := item];
      i := i + 1;
    }
    assert items[..i] == items;
    var objs: seq<TeamMember> := [];
    var j := 0;
    while j < |order|
      invariant 0 <= j <= |order|
      invariant Resolve(teamMembers, order, data, []) == Resolve(teamMembers, order[j..], data, objs)
    {
      assert order[j..][1..] == order[j + 1..];
      var member := MemberById(teamMembers, order[j]);
      if member.None? {
        return Err(NoSuchMember(order[j]));
      }
      objs := objs + [member.value.(isAdmin := NewFlag(data, order[j]))];
      j := j + 1;
    }
    assert order[j..] == [];
    return Ok(objs);
  }

  /**
   * `TeamMemberListSerializer.update` over `instance`, the memberships of `team`: the new
   * flags are written in one `bulk_update` after every check, so a failure writes nothing.
   */
  method UpdateMembers(db: Database, team: TeamId, instance: seq<TeamMember>, items: seq<UpdateItem>)
    returns (r: Result<seq<TeamMember>, Failure>)
    requires db.Valid()
    requires instance == MembersOfTeam(db.members, team)
    modifies db
    ensures db.Valid()
    ensures db.users == old(db.users) && db.teams == old(db.teams) && db.projects == old(db.projects)
    ensures r == AdminUpdatePlan(instance, items)
    ensures r.Err? ==> db.members == old(db.members)
    ensures r.Ok? ==> db.members == WithAdminFlags(old(db.members), FlagsOf(r.value))
  {
    r := CollectAdminUpdates(instance, items);
    if r.Ok? {
      db.SetAdminFlags(FlagsOf(r.value));
    }
  }

  /** A row whose id receives a flag is a membership of the team, and some item names it. */
  lemma FlaggedRowIsNamed(members: seq<TeamMember>, team: TeamId, items: seq<UpdateItem>,
                          objs: seq<TeamMember>, k: int)
    requires UniqueMemberIds(members)
    requires AdminUpdatePlan(MembersOfTeam(members, team), items) == Ok(objs)
    requires 0 <= k < |members| && members[k].id in FlagsOf(objs)
    ensures members[k].team == team
    ensures exists i :: 0 <= i < |items| && items[i].id == Some(members[k].id)
  {
    var tm := MembersOfTeam(members, team);
    var id := members[k].id;
    assert exists l :: 0 <= l < |objs| && objs[l].id == id by {
      AdminUpdateRowsDistinct(tm, items, objs);
      FlagsOfMeaning(objs);
    }
    var l :| 0 <= l < |objs| && objs[l].id == id;
    assert MemberById(tm, id).Some? by {
      AdminUpdateObjects(tm, items, objs);
    }
    var row := MemberById(tm, id).value;
    assert row in members && row.team == team && row.id == id;
    var a :| 0 <= a < |members| && members[a] == row;
    assert a == k;
    assert exists i :: 0 <= i < |items| && Some(objs[l].id) == items[i].id by {
      AdminUpdateRows(tm, items, objs);
    }
  }

  /** A row named by an item receives the flag of the last item naming it. */
  lemma NamedRowIsFlagged(teamMembers: seq<TeamMember>, items: seq<UpdateItem>, objs: seq<TeamMember>,
                          id: MemberId, i: int)
    requires AdminUpdatePlan(teamMembers, items) == Ok(objs)
    requires 0 <= i < |items| && items[i].id == Some(id)
    requires forall j :: i < j < |items| ==> items[j].id != items[i].id
    ensures id in FlagsOf(objs) && FlagsOf(objs)[id] == items[i].isAdmin.GetOr(false)
  {
    AdminUpdateRows(teamMembers, items, objs);
    AdminUpdateRowsDistinct(teamMembers, items, objs);
    FlagsOfMeaning(objs);
    var l :| 0 <= l < |objs| && Some(objs[l].id) == items[i].id;
    AdminUpdateLastWins(teamMembers, items, objs, l, i);
  }

  /**
   * The effect of a successful bulk update on row `k` of the whole membership table: only
   * its flag may change; a member of the team named by some item gets the flag of the last
   * item naming it, and any other row, of this team or another, is left as it was.
   */
  lemma AdminUpdateEffect(members: seq<TeamMember>, team: TeamId, items: seq<UpdateItem>,
                          objs: seq<TeamMember>, k: int)
    requires UniqueMemberIds(members)
    requires AdminUpdatePlan(MembersOfTeam(members, team), items) == Ok(objs)
    requires 0 <= k < |members|
    ensures |WithAdminFlags(members, FlagsOf(objs))| == |members|
    ensures WithAdminFlags(members, FlagsOf(objs))[k] ==
      members[k].(isAdmin := WithAdminFlags(members, FlagsOf(objs))[k].isAdmin)
    ensures (members[k].team != team || forall i :: 0 <= i < |items| ==> items[i].id != Some(members[k].id)) ==>
      WithAdminFlags(members, FlagsOf(objs))[k] == members[k]
    ensures forall i :: (0 <= i < |items| && members[k].team == team && items[i].id == Some(members[k].id) &&
      forall j :: i < j < |items| ==> items[j].id != items[i].id) ==>
        WithAdminFlags(members, FlagsOf(objs))[k].isAdmin == items[i].isAdmin.GetOr(false)
  {
    if members[k].id in FlagsOf(objs) {
      FlaggedRowIsNamed(members, team, items, objs, k);
    }
    forall i | 0 <= i < |items| && members[k].team == team && items[i].id == Some(members[k].id) &&
               (forall j :: i < j < |items| ==> items[j].id != items[i].id)
      ensures WithAdminFlags(members, FlagsOf(objs))[k].isAdmin == items[i].isAdmin.GetOr(false)
    {
      NamedRowIsFlagged(MembersOfTeam(members, team), items, objs, members[k].id, i);
    }
  }

  // ---------------------------------------------------------------------------
  // TeamSerializer
  // ---------------------------------------------------------------------------

  /** `check_user_is_admin`: the lookup fails for a non-member. */
  function CheckUserIsAdmin(members: seq<TeamMember>, user: UserId, teamId: TeamId): (r: Result<bool, Failure>)
    ensures r.Err? <==> !IsMember(members, user, teamId)
    ensures r.Err? ==> r.error == MemberLookupFailed
    ensures r.Ok? ==> RoleIn(members, user, teamId) == Member(r.value)
  {
    match FindMember(members, user, teamId)
    case None => Err(MemberLookupFailed)
    case Some(m) => Ok(m.isAdmin)
  }

  /** A value of the serialized representation. */
  datatype Value = IntValue(i: int) | TextValue(s: string)

  const TeamFields: set<string> := {"id", "name", "description", "public_edit", "privacy_edit"}
  const PolicyFields: set<string> := {"public_edit", "privacy_edit"}

  /** The model serializer's representation of a team, before `to_representation` trims it. */
  function Serialized(teamId: TeamId, team: Team): map<string, Value> {
    map["id" := IntValue(teamId), "name" := TextValue(team.name),
        "description" := TextValue(team.description),
        "public_edit" := TextValue(PolicyCode(team.publicEdit)),
        "privacy_edit" := TextValue(PolicyCode(team.privacyEdit))]
  }

  /**
   * `to_representation` for `user`: admins see every field, other members see all but the
   * two policy fields; the values shown are the team's.
   */
  function Representation(members: seq<TeamMember>, user: UserId, teamId: TeamId, team: Team)
    : (r: Result<map<string, Value>, Failure>)
    ensures r.Err? <==> !IsMember(members, user, teamId)
    ensures r.Ok? && RoleIn(members, user, teamId) == Member(true) ==> r.value.Keys == TeamFields
    ensures r.Ok? && RoleIn(members, user, teamId) == Member(false) ==> r.value.Keys == TeamFields - PolicyFields
    ensures r.Ok? ==> forall f :: f in r.value ==> f in Serialized(teamId, team) && r.value[f] == Serialized(teamId, team)[f]
  {
    var ret := Serialized(teamId, team);
    match FindMember(members, user, teamId)
    case None => Err(MemberLookupFailed)
    case Some(m) => Ok(if !m.isAdmin then ret - PolicyFields else ret)
  }

  /** The fields a team create request may carry. */
  datatype TeamInput = TeamInput(name: string, description: Option<string>,
                                 publicEdit: Option<EditPolicy>, privacyEdit: Option<EditPolicy>)

  /**
   * `TeamSerializer.create`: any policy in the input is dropped, so the team gets the
   * defaults, and the requesting user becomes its first and only member, as an admin.
   */
  method CreateTeam(db: Database, creator: UserId, input: TeamInput) returns (teamId: TeamId)
    requires db.Valid()
    requires UserExists(db.users, creator)
    modifies db
    ensures db.Valid()
    ensures teamId !in old(db.teams)
    ensures db.teams == old(db.teams)[teamId := Team(input.name, input.description.GetOr(""), All, All)]
    ensures db.members == old(db.members) + [TeamMember(old(db.nextMemberId), creator, teamId, true)]
    ensures db.users == old(db.users) && db.projects == old(db.projects)
    ensures RoleIn(db.members, creator, teamId) == Member(true)
    ensures MembersOfTeam(db.members, teamId) == [TeamMember(old(db.nextMemberId), creator, teamId, true)]
  {
    var team := NewTeam(input.name, input.description, None, None);
    teamId := db.InsertTeam(team);
    ghost var before := db.members;
    assert forall m :: m in before ==> m.team != teamId;
    var rows := db.InsertMembers(teamId, [creator], true);
    var row := TeamMember(old(db.nextMemberId), creator, teamId, true);
    assert rows == [row];
    RoleOfRow(db.members, |db.members| - 1);
    TeamRowsOfAppend(before, row, teamId);
  }

  lemma {:induction false} TeamRowsOfAppend(members: seq<TeamMember>, row: TeamMember, team: TeamId)
    requires forall m :: m in members ==> m.team != team
    requires row.team == team
    ensures MembersOfTeam(members + [row], team) == [row]
  {
    if members == [] {
      assert [row][1..] == [];
    } else {
      assert (members + [row])[1..] == members[1..] + [row];
      TeamRowsOfAppend(members[1..], row, team);
    }
  }

  /** The attributes of a team an update may assign. */
  datatype Attribute = NameAttr | DescriptionAttr | PublicEditAttr | PrivacyEditAttr {
    predicate IsPolicy() {
      this == PublicEditAttr || this == PrivacyEditAttr
    }
  }

  /** An attribute's current value, as the representation shows it. */
  function Get(team: Team, a: Attribute): Value {
    match a
    case NameAttr => TextValue(team.name)
    case DescriptionAttr => TextValue(team.description)
    case PublicEditAttr => TextValue(PolicyCode(team.publicEdit))
    case PrivacyEditAttr => TextValue(PolicyCode(team.privacyEdit))
  }

  /** One `setattr(instance, key, value)` of an update. */
  datatype TeamField =
    | Name(name: string)
    | Description(description: string)
    | PublicEdit(publicEdit: EditPolicy)
    | PrivacyEdit(privacyEdit: EditPolicy)

  function AttributeOf(f: TeamField): Attribute {
    match f
    case Name(_) => NameAttr
    case Description(_) => DescriptionAttr
    case PublicEdit(_) => PublicEditAttr
    case PrivacyEdit(_) => PrivacyEditAttr
  }

  function FieldValue(f: TeamField): Value {
    match f
    case Name(n) => TextValue(n)
    case Description(d) => TextValue(d)
    case PublicEdit(p) => TextValue(PolicyCode(p))
    case PrivacyEdit(p) => TextValue(PolicyCode(p))
  }

  /** `"public_edit" in validated_data or "privacy_edit" in validated_data` */
  predicate TouchesPolicy(fields: seq<TeamField>) {
    exists i :: 0 <= i < |fields| && AttributeOf(fields[i]).IsPolicy()
  }

  function Assign(team: Team, f: TeamField): Team {
    match f
    case Name(n) => team.(name := n)
    case Description(d) => team.(description := d)
    case PublicEdit(p) => team.(publicEdit := p)
    case PrivacyEdit(p) => team.(privacyEdit := p)
  }

  /** The team after the `setattr` loop over `fields`. */
  function Assigned(team: Team, fields: seq<TeamField>): Team {
    if fields == [] then team
    else Assign(Assigned(team, fields[..|fields| - 1]), fields[|fields| - 1])
  }

  lemma GetAfterAssign(team: Team, f: TeamField, a: Attribute)
    ensures Get(Assign(team, f), a) == if AttributeOf(f) == a then FieldValue(f) else Get(team, a)
  {
  }

  /** The loop leaves every attribute no entry names as it was. */
  lemma {:induction false} AssignedKeepsUnnamed(team: Team, fields: seq<TeamField>, a: Attribute)
    requires forall i :: 0 <= i < |fields| ==> AttributeOf(fields[i]) != a
    ensures Get(Assigned(team, fields), a) == Get(team, a)
  {
    if fields != [] {
      var init := fields[..|fields| - 1];
      assert forall i :: 0 <= i < |init| ==> init[i] == fields[i];
      AssignedKeepsUnnamed(team, init, a);
      GetAfterAssign(Assigned(team, init), fields[|fields| - 1], a);
    }
  }

  /** An attribute named by some entry shows the value of the last entry naming it. */
  lemma {:induction false} AssignedTakesLast(team: Team, fields: seq<TeamField>, i: int)
    requires 0 <= i < |fields|
    requires forall j :: i < j < |fields| ==> AttributeOf(fields[j]) != AttributeOf(fields[i])
    ensures Get(Assigned(team, fields), AttributeOf(fields[i])) == FieldValue(fields[i])
  {
    var init := fields[..|fields| - 1];
    GetAfterAssign(Assigned(team, init), fields[|fields| - 1], AttributeOf(fields[i]));
    if i < |fields| - 1 {
      assert init[i] == fields[i];
      AssignedTakesLast(team, init, i);
    }
  }

  /** `TeamSerializer.update` up to `save`: the updated team, or why there is none. */
  function TeamUpdatePlan(members: seq<TeamMember>, user: UserId, teamId: TeamId, team: Team,
                          fields: seq<TeamField>): Result<Team, Failure>
  {
    match CheckUserIsAdmin(members, user, teamId)
    case Err(e) => Err(e)
    case Ok(isAdmin) =>
      if !isAdmin && TouchesPolicy(fields) then Err(SettingsForAdminsOnly)
      else Ok(Assigned(team, fields))
  }

  /**
   * A plain member's update that names a policy field is refused as a whole: it is the rule
   * table's "change team policy" refusal. Any update that goes through leaves a plain
   * member's team policies as they were.
   */
  lemma TeamUpdatePolicyRule(members: seq<TeamMember>, user: UserId, teamId: TeamId, team: Team,
                             fields: seq<TeamField>)
    ensures TeamUpdatePlan(members, user, teamId, team, fields) == Err(SettingsForAdminsOnly) <==>
      TouchesPolicy(fields) &&
      Check(ChangeTeamPolicy, RoleIn(members, user, teamId), team.publicEdit) == InsufficientRole
    ensures (TeamUpdatePlan(members, user, teamId, team, fields).Ok? &&
             RoleIn(members, user, teamId) == Member(false)) ==>
        TeamUpdatePlan(members, user, teamId, team, fields).value.publicEdit == team.publicEdit &&
        TeamUpdatePlan(members, user, teamId, team, fields).value.privacyEdit == team.privacyEdit
  {
    if TeamUpdatePlan(members, user, teamId, team, fields).Ok? && RoleIn(members, user, teamId) == Member(false) {
      var t := Assigned(team, fields);
      AssignedKeepsUnnamed(team, fields, PublicEditAttr);
      AssignedKeepsUnnamed(team, fields, PrivacyEditAttr);
      PolicyCodeInjective(t.publicEdit, team.publicEdit);
      PolicyCodeInjective(t.privacyEdit, team.privacyEdit);
    }
  }

  /** The `setattr` loop of `update`. */
  method SetAttributes(team: Team, fields: seq<TeamField>) returns (t: Team)
    ensures t == Assigned(team, fields)
  {
    t := team;
    var i := 0;
    while i < |fields|
      invariant 0 <= i <= |fields|
      invariant t == Assigned(team, fields[..i])
    {
      assert fields[..i + 1][..i] == fields[..i];
      t := Assign(t, fields[i]);
      i := i + 1;
    }
    assert fields[..i] == fields;
  }

  /**
   * `TeamSerializer.update` of team `teamId` for `user`: either the whole update is saved
   * or, on failure, the team is left untouched.
   */
  method UpdateTeam(db: Database, user: UserId, teamId: TeamId, fields: seq<TeamField>)
    returns (r: Result<Team, Failure>)
    requires db.Valid()
    requires teamId in db.teams
    modifies db
    ensures db.Valid()
    ensures db.users == old(db.users) && db.members == old(db.members) && db.projects == old(db.projects)
    ensures r == TeamUpdatePlan(old(db.members), user, teamId, old(db.teams)[teamId], fields)
    ensures r.Err? ==> db.teams == old(db.teams)
    ensures r.Ok? ==> db.teams == old(db.teams)[teamId := r.value]
  {
    var isAdmin := CheckUserIsAdmin(db.members, user, teamId);
    if isAdmin.Err? {
      return Err(isAdmin.error);
    }
    if !isAdmin.value && TouchesPolicy(fields) {
      return Err(SettingsForAdminsOnly);
    }
    var t := SetAttributes(db.teams[teamId], fields);
    db.SaveTeam(teamId, t);
    return Ok(t);
  }
}

=== FILE: team_views.dfy ===
/**
 * team/views.py: the team view set. `get_object` only finds the teams the requester
 * belongs to and then applies the object permissions `get_permissions` picks for the
 * action; two extra actions manage the memberships of a team. Each handler is a method on
 * the store whose response status is specified by a function of the state it starts from;
 * the lemmas relate those statuses to the rule table.
 */
module TeamViews {
  import opened Wrappers
  import opened Http
  import opened Models
  import opened AccessRules
  import opened TeamPermissions
  import opened TeamSerializers
  import opened Store

  /** The actions of the view set: the model view set's own and the two extra ones. */
  datatype ViewAction =
    | List
    | Create
    | Retrieve
    | Update
    | PartialUpdate
    | Destroy
    | ManageMembers   // `members`
    | RemoveMember    // `remove_member`

  /** The permission classes the view set applies. */
  datatype PermissionClass =
    | Authenticated
    | AllowedToEdit
    | AllowedToDelete
    | AllowedToAddOrEditMembers

  /**
   * The decision of `IsAllowedToAddOrEditMembers`, whose definition is not part of this
   * model, for a request method, the requesting user and the team.
   */
  type MembersRule = (HttpMethod, UserId, TeamId) -> Decision

  /**
   * The decision of `IsAllowedToRemoveMembers`, whose definition is not part of this model,
   * for the requesting user, the membership to remove and the team.
   */
  type RemovalRule = (UserId, TeamMember, TeamId) -> Decision

  /** Passed for the membership rule where the action does not consult it. */
  const Unconsulted: MembersRule := (verb: HttpMethod, user: UserId, pk: TeamId) => Grant

  /** `get_permissions` */
  function GetPermissions(action: ViewAction): seq<PermissionClass> {
    match action
    case ManageMembers => [Authenticated, AllowedToAddOrEditMembers]
    case RemoveMember => [Authenticated]
    case _ => [Authenticated, AllowedToEdit, AllowedToDelete]
  }

  /** One permission's `has_object_permission`; that of `IsAuthenticated` is the default True. */
  function ObjectPermission(p: PermissionClass, verb: HttpMethod, members: seq<TeamMember>, user: UserId,
                            pk: TeamId, team: Team, membersRule: MembersRule): Decision
  {
    match p
    case Authenticated => Grant
    case AllowedToEdit => IsAllowedToEdit(verb, members, user, pk, team)
    case AllowedToDelete => IsAllowedToDelete(verb, members, user, pk, team)
    case AllowedToAddOrEditMembers => membersRule(verb, user, pk)
  }

  /** `check_object_permissions`: the permissions in order; the first that does not grant decides. */
  function CheckObjectPermissions(perms: seq<PermissionClass>, verb: HttpMethod, members: seq<TeamMember>,
                                  user: UserId, pk: TeamId, team: Team, membersRule: MembersRule): Decision
  {
    if perms == [] then Grant
    else
      var d := ObjectPermission(perms[0], verb, members, user, pk, team, membersRule);
      if d != Grant then d else CheckObjectPermissions(perms[1..], verb, members, user, pk, team, membersRule)
  }

  /** Team `pk` exists and `user` belongs to it. */
  predicate Visible(teams: map<TeamId, Team>, members: seq<TeamMember>, user: UserId, pk: int) {
    pk in teams && IsMember(members, user, pk)
  }

  /** `get_queryset`, which the list action answers with: the teams of `user`. */
  function VisibleTeams(teams: map<TeamId, Team>, members: seq<TeamMember>, user: UserId): set<TeamId> {
    set pk | pk in teams && IsMember(members, user, pk)
  }

  /** The teams listed are exactly those of the requester's memberships. */
  lemma VisibleTeamsAreMemberships(teams: map<TeamId, Team>, members: seq<TeamMember>, user: UserId)
    requires forall m :: m in members ==> m.team in teams
    ensures VisibleTeams(teams, members, user) == set m | m in members && m.user == user :: m.team
  {
    var byRows := set m | m in members && m.user == user :: m.team;
    forall pk | pk in VisibleTeams(teams, members, user) ensures pk in byRows {
      var i :| 0 <= i < |members| && members[i].user == user && members[i].team == pk;
      assert members[i] in members;
    }
    forall pk | pk in byRows ensures pk in VisibleTeams(teams, members, user) {
      var m :| m in members && m.user == user && m.team == pk;
      var i :| 0 <= i < |members| && members[i] == m;
    }
  }

  /** `get_object` for `action`: the team, or the status the request is answered with. */
  function GetObject(teams: map<TeamId, Team>, members: seq<TeamMember>, user: UserId, pk: int,
                     action: ViewAction, verb: HttpMethod, membersRule: MembersRule): Result<Team, Status>
  {
    if !Visible(teams, members, user, pk) then Err(NotFound404)
    else
      match CheckObjectPermissions(GetPermissions(action), verb, members, user, pk, teams[pk], membersRule)
      case Grant => Ok(teams[pk])
      case Refuse => Err(Forbidden403)
      case LookupFailed => Err(ServerError500)
  }

  /** The default actions apply the edit permission, then the delete permission. */
  lemma DefaultPermissions(action: ViewAction, verb: HttpMethod, members: seq<TeamMember>, user: UserId,
                           pk: TeamId, team: Team, membersRule: MembersRule)
    requires action != ManageMembers && action != RemoveMember
    ensures CheckObjectPermissions(GetPermissions(action), verb, members, user, pk, team, membersRule) ==
      if IsAllowedToEdit(verb, members, user, pk, team) != Grant then IsAllowedToEdit(verb, members, user, pk, team)
      else IsAllowedToDelete(verb, members, user, pk, team)
  {
    var perms := GetPermissions(action);
    assert perms[1..] == [AllowedToEdit, AllowedToDelete];
    assert perms[1..][1..] == [AllowedToDelete];
    assert perms[1..][1..][1..] == [];
    assert CheckObjectPermissions(perms, verb, members, user, pk, team, membersRule) ==
      CheckObjectPermissions(perms[1..], verb, members, user, pk, team, membersRule);
    assert CheckObjectPermissions(perms[1..][1..], verb, members, user, pk, team, membersRule) ==
      IsAllowedToDelete(verb, members, user, pk, team);
  }

  /**
   * A PUT or PATCH finds the team exactly for its members, and then the rule table's "edit
   * team information" rule decides between 403 and going on; it is never answered 500.
   */
  lemma EditRequestFollowsRules(teams: map<TeamId, Team>, members: seq<TeamMember>, user: UserId, pk: int,
                                verb: HttpMethod, membersRule: MembersRule)
    requires verb == PUT || verb == PATCH
    ensures var r := GetObject(teams, members, user, pk, if verb == PUT then Update else PartialUpdate, verb, membersRule);
      && (r == Err(NotFound404) <==> !Visible(teams, members, user, pk))
      && (Visible(teams, members, user, pk) ==>
            (r.Ok? <==> Check(EditTeamInfo, RoleIn(members, user, pk), teams[pk].publicEdit) == Allowed))
      && (Visible(teams, members, user, pk) ==>
            (r == Err(Forbidden403) <==> Check(EditTeamInfo, RoleIn(members, user, pk), teams[pk].publicEdit) == InsufficientRole))
      && r != Err(ServerError500)
  {
    if Visible(teams, members, user, pk) {
      var action := if verb == PUT then Update else PartialUpdate;
      DefaultPermissions(action, verb, members, user, pk, teams[pk], membersRule);
      IsAllowedToEditFollowsRules(verb, members, user, pk, teams[pk]);
    }
  }

  /**
   * A DELETE finds the team exactly for its members, and then the rule table's "delete team"
   * rule decides: admins go on, plain members are answered 403; never 500.
   */
  lemma DeleteRequestFollowsRules(teams: map<TeamId, Team>, members: seq<TeamMember>, user: UserId, pk: int,
                                  membersRule: MembersRule)
    ensures var r := GetObject(teams, members, user, pk, Destroy, DELETE, membersRule);
      && (r == Err(NotFound404) <==> !Visible(teams, members, user, pk))
      && (Visible(teams, members, user, pk) ==>
            (r.Ok? <==> Check(DeleteTeam, RoleIn(members, user, pk), teams[pk].publicEdit) == Allowed))
      && (Visible(teams, members, user, pk) ==>
            (r == Err(Forbidden403) <==> Check(DeleteTeam, RoleIn(members, user, pk), teams[pk].publicEdit) == InsufficientRole))
      && r != Err(ServerError500)
  {
    if Visible(teams, members, user, pk) {
      DefaultPermissions(Destroy, DELETE, members, user, pk, teams[pk], membersRule);
      IsAllowedToDeleteFollowsRules(DELETE, members, user, pk, teams[pk]);
    }
  }

  /**
   * Reading a team and `remove_member` need membership only: neither edit nor delete rule
   * applies to them, not even to `remove_member`'s DELETE. `members` is decided by its own
   * rule once the team is found.
   */
  lemma OtherActionsNeedMembership(teams: map<TeamId, Team>, members: seq<TeamMember>, user: UserId, pk: int,
                                   verb: HttpMethod, membersRule: MembersRule)
    ensures GetObject(teams, members, user, pk, Retrieve, GET, membersRule).Ok? <==> Visible(teams, members, user, pk)
    ensures GetObject(teams, members, user, pk, Retrieve, GET, membersRule).Err? ==>
      GetObject(teams, members, user, pk, Retrieve, GET, membersRule).error == NotFound404
    ensures GetObject(teams, members, user, pk, RemoveMember, verb, membersRule).Ok? <==> Visible(teams, members, user, pk)
    ensures GetObject(teams, members, user, pk, RemoveMember, verb, membersRule).Err? ==>
      GetObject(teams, members, user, pk, RemoveMember, verb, membersRule).error == NotFound404
    ensures Visible(teams, members, user, pk) ==>
      (GetObject(teams, members, user, pk, ManageMembers, verb, membersRule).Ok? <==> membersRule(verb, user, pk) == Grant)
  {
    if Visible(teams, members, user, pk) {
      var team := teams[pk];
      DefaultPermissions(Retrieve, GET, members, user, pk, team, membersRule);
      var manage := GetPermissions(ManageMembers);
      assert manage[1..] == [AllowedToAddOrEditMembers] && manage[1..][1..] == [];
      assert CheckObjectPermissions(manage, verb, members, user, pk, team, membersRule) ==
        CheckObjectPermissions(manage[1..], verb, members, user, pk, team, membersRule);
      assert CheckObjectPermissions(manage[1..], verb, members, user, pk, team, membersRule) ==
        membersRule(verb, user, pk);
      var remove := GetPermissions(RemoveMember);
      assert remove[1..] == [];
      assert CheckObjectPermissions(remove, verb, members, user, pk, team, membersRule) ==
        CheckObjectPermissions(remove[1..], verb, members, user, pk, team, membersRule);
    }
  }

  // ---------------------------------------------------------------------------
  // retrieve
  // ---------------------------------------------------------------------------

  /**
   * `retrieve`: a member sees the team, an admin with its policies, a plain member without;
   * anyone else is answered 404.
   */
  function RetrieveResponse(teams: map<TeamId, Team>, members: seq<TeamMember>, user: UserId, pk: int)
    : (r: Result<map<string, Value>, Status>)
    ensures r.Ok? <==> Visible(teams, members, user, pk)
    ensures r.Err? ==> r.error == NotFound404
    ensures r.Ok? && RoleIn(members, user, pk) == Member(true) ==> r.value.Keys == TeamFields
    ensures r.Ok? && RoleIn(members, user, pk) == Member(false) ==> r.value.Keys == TeamFields - PolicyFields
  {
    OtherActionsNeedMembership(teams, members, user, pk, GET, Unconsulted);
    match GetObject(teams, members, user, pk, Retrieve, GET, Unconsulted)
    case Err(status) => Err(status)
    case Ok(team) =>
      match Representation(members, user, pk, team)
      case Err(_) => Err(ServerError500)
      case Ok(fields) => Ok(fields)
  }

  // ---------------------------------------------------------------------------
  // members
  // ---------------------------------------------------------------------------

  /** How a serializer failure is answered: a validation error is 400, anything else 500. */
  function FailureStatus(e: Failure): Status {
    if e.IsValidationError() then BadRequest400 else ServerError500
  }

  /** The status `members` answers with. */
  function ManageMembersStatus(users: seq<User>, teams: map<TeamId, Team>, members: seq<TeamMember>,
                               user: UserId, pk: int, verb: HttpMethod, valid: bool,
                               addItems: seq<AddItem>, updateItems: seq<UpdateItem>,
                               membersRule: MembersRule): Status
  {
    match GetObject(teams, members, user, pk, ManageMembers, verb, membersRule)
    case Err(status) => status
    case Ok(_) =>
      if verb == GET then Ok200
      else if !valid then BadRequest400
      else if verb == POST then
        match AddPlanAsWritten(users, members, Some(pk), addItems)
        case Err(e) => FailureStatus(e)
        case Ok(_) => Created201
      else
        match AdminUpdatePlan(MembersOfTeam(members, pk), updateItems)
        case Err(e) => FailureStatus(e)
        case Ok(_) => Ok200
  }

  /**
   * Once the team is found, a well-formed POST is answered 500 exactly when the batch is
   * empty, an item without an email comes before any item with an unknown email, or every
   * email is known and two items name the same non-member; 201 exactly when the batch is
   * non-empty, every email is known and no non-member is named twice. A well-formed PATCH
   * is answered 400 exactly when an id is missing or is not a membership of this team.
   */
  lemma ManageMembersFailures(users: seq<User>, teams: map<TeamId, Team>, members: seq<TeamMember>,
                              user: UserId, pk: int, verb: HttpMethod,
                              addItems: seq<AddItem>, updateItems: seq<UpdateItem>, membersRule: MembersRule)
    requires GetObject(teams, members, user, pk, ManageMembers, verb, membersRule).Ok?
    ensures verb == POST ==>
      (ManageMembersStatus(users, teams, members, user, pk, verb, true, addItems, updateItems, membersRule) == ServerError500 <==>
         || addItems == []
         || (exists i :: 0 <= i < |addItems| && addItems[i].email.None? &&
                        forall j :: 0 <= j < i ==> ItemUser(users, addItems[j]).Some?)
         || ((forall i :: 0 <= i < |addItems| ==> ItemUser(users, addItems[i]).Some?) &&
             NamesNonMemberTwice(users, members, pk, addItems)))
    ensures verb == POST ==>
      (ManageMembersStatus(users, teams, members, user, pk, verb, true, addItems, updateItems, membersRule) == Created201 <==>
         && addItems != []
         && (forall i :: 0 <= i < |addItems| ==> ItemUser(users, addItems[i]).Some?)
         && !NamesNonMemberTwice(users, members, pk, addItems))
    ensures verb == PATCH ==>
      (ManageMembersStatus(users, teams, members, user, pk, verb, true, addItems, updateItems, membersRule) == BadRequest400 <==>
         exists i :: 0 <= i < |updateItems| &&
           (!HasId(updateItems[i]) || MemberById(MembersOfTeam(members, pk), updateItems[i].id.value).None?))
  {
    AddPlanMeaning(users, members, Some(pk), addItems);
    AddPlanAsWrittenMeaning(users, members, Some(pk), addItems);
    AdminUpdateFailure(MembersOfTeam(members, pk), updateItems);
    if verb == POST && addItems != [] {
      QueueErrors(users, members, pk, addItems, []);
      if exists i :: 0 <= i < |addItems| && addItems[i].email.None? {
        var i :| 0 <= i < |addItems| && addItems[i].email.None?;
        assert ItemUser(users, addItems[i]).None?;
      }
    }
    if verb == PATCH && AdminUpdatePlan(MembersOfTeam(members, pk), updateItems).Err? {
      AdminUpdateErrors(MembersOfTeam(members, pk), updateItems);
    }
  }

  /** `members`: list (GET), add by email (POST) or set admin flags (PATCH) for team `pk`. */
  method ManageMembersView(db: Database, user: UserId, pk: int, verb: HttpMethod, valid: bool,
                           addItems: seq<AddItem>, updateItems: seq<UpdateItem>, membersRule: MembersRule)
    returns (status: Status, listed: seq<TeamMember>)
    requires db.Valid()
    requires verb == GET || verb == POST || verb == PATCH
    modifies db
    ensures db.Valid()
    ensures status == ManageMembersStatus(old(db.users), old(db.teams), old(db.members), user, pk, verb, valid,
                                          addItems, updateItems, membersRule)
    ensures db.users == old(db.users) && db.teams == old(db.teams) && db.projects == old(db.projects)
    ensures verb == GET && status == Ok200 ==> listed == MembersOfTeam(db.members, pk)
    ensures status == Created201 ==>
      db.members == old(db.members) +
        NewRows(old(db.nextMemberId), pk, AddPlanAsWritten(old(db.users), old(db.members), Some(pk), addItems).value, false)
    ensures verb == PATCH && status == Ok200 ==>
      db.members == WithAdminFlags(old(db.members),
                                   FlagsOf(AdminUpdatePlan(MembersOfTeam(old(db.members), pk), updateItems).value))
    ensures status != Created201 && !(verb == PATCH && status == Ok200) ==> db.Contents() == old(db.Contents())
  {
    listed := [];
    var found := GetObject(db.teams, db.members, user, pk, ManageMembers, verb, membersRule);
    if found.Err? {
      return found.error, [];
    }
    if verb == GET {
      return Ok200, MembersOfTeam(db.members, pk);
    }
    if !valid {
      return BadRequest400, [];
    }
    if verb == POST {
      var added := AddMembers(db, Some(pk), addItems);
      if added.Err? {
        return FailureStatus(added.error), [];
      }
      return Created201, added.value;
    }
    var updated := UpdateMembers(db, pk, MembersOfTeam(db.members, pk), updateItems);
    if updated.Err? {
      status := FailureStatus(updated.error);
    } else {
      status := Ok200;
    }
  }

  // ---------------------------------------------------------------------------
  // remove_member
  // ---------------------------------------------------------------------------

  /**
   * The status `remove_member` answers with. Everything after `get_object` runs under a bare
   * `except`, so a missing membership and a failing removal check are both answered 404.
   */
  function RemoveMemberStatus(teams: map<TeamId, Team>, members: seq<TeamMember>, user: UserId, pk: int,
                              memberId: MemberId, removalRule: RemovalRule): Status
  {
    match GetObject(teams, members, user, pk, RemoveMember, DELETE, Unconsulted)
    case Err(status) => status
    case Ok(_) =>
      match MemberById(MembersOfTeam(members, pk), memberId)
      case None => NotFound404
      case Some(instance) =>
        match removalRule(user, instance, pk)
        case Grant => NoContent204
        case Refuse => Forbidden403
        case LookupFailed => NotFound404
  }

  /**
   * A removal goes through only for a member of team `pk` and only for a membership of that
   * team: the one row with that id goes, and every row of other teams stays.
   */
  lemma RemovalStaysInTeam(teams: map<TeamId, Team>, members: seq<TeamMember>, user: UserId, pk: int,
                           memberId: MemberId, removalRule: RemovalRule)
    requires UniqueMemberIds(members)
    requires RemoveMemberStatus(teams, members, user, pk, memberId, removalRule) == NoContent204
    ensures IsMember(members, user, pk)
    ensures exists m :: m in members && m.id == memberId && m.team == pk
    ensures forall m :: m in members && m.team != pk ==> m in Keep(members, (n: TeamMember) => n.id != memberId)
    ensures forall m :: m in members && m.id != memberId ==> m in Keep(members, (n: TeamMember) => n.id != memberId)
    ensures forall m :: m in Keep(members, (n: TeamMember) => n.id != memberId) ==> m.id != memberId
  {
    OtherActionsNeedMembership(teams, members, user, pk, DELETE, Unconsulted);
    var row := MemberById(MembersOfTeam(members, pk), memberId).value;
    assert row in members && row.team == pk;
    forall m | m in members && m.team != pk ensures m.id != memberId {
      var a :| 0 <= a < |members| && members[a] == m;
      var b :| 0 <= b < |members| && members[b] == row;
    }
  }

  /**
   * `remove_member` answers 404 to anyone outside team `pk` and for an id that is no
   * membership of that team. Otherwise the removal check on that row decides: 204 when it
   * grants, 403 when it refuses, and 404 when it fails, because the bare `except` catches it.
   */
  lemma RemoveMemberOutcome(teams: map<TeamId, Team>, members: seq<TeamMember>, user: UserId, pk: int,
                            memberId: MemberId, removalRule: RemovalRule)
    requires UniqueMemberIds(members)
    ensures !Visible(teams, members, user, pk) ==>
      RemoveMemberStatus(teams, members, user, pk, memberId, removalRule) == NotFound404
    ensures (forall m :: m in members && m.id == memberId ==> m.team != pk) ==>
      RemoveMemberStatus(teams, members, user, pk, memberId, removalRule) == NotFound404
    ensures forall m :: m in members && m.id == memberId && m.team == pk && Visible(teams, members, user, pk) ==>
      && (RemoveMemberStatus(teams, members, user, pk, memberId, removalRule) == NoContent204 <==>
            removalRule(user, m, pk) == Grant)
      && (RemoveMemberStatus(teams, members, user, pk, memberId, removalRule) == Forbidden403 <==>
            removalRule(user, m, pk) == Refuse)
      && (RemoveMemberStatus(teams, members, user, pk, memberId, removalRule) == NotFound404 <==>
            removalRule(user, m, pk) == LookupFailed)
  {
    OtherActionsNeedMembership(teams, members, user, pk, DELETE, Unconsulted);
    var rows := MembersOfTeam(members, pk);
    forall m | m in members && m.id == memberId && m.team == pk
      ensures MemberById(rows, memberId) == Some(m)
    {
      assert m in rows;
      var i :| 0 <= i < |rows| && rows[i] == m;
      MemberByIdFindsRow(rows, i);
    }
  }

  /** `remove_member`: delete membership `memberId` of team `pk`. */
  method RemoveMemberView(db: Database, user: UserId, pk: int, memberId: MemberId, removalRule: RemovalRule)
    returns (status: Status)
    requires db.Valid()
    modifies db
    ensures db.Valid()
    ensures status == RemoveMemberStatus(old(db.teams), old(db.members), user, pk, memberId, removalRule)
    ensures status == NoContent204 ==> db.members == Keep(old(db.members), (m: TeamMember) => m.id != memberId)
    ensures status != NoContent204 ==> db.members == old(db.members)
    ensures db.users == old(db.users) && db.teams == old(db.teams) && db.projects == old(db.projects)
  {
    var found := GetObject(db.teams, db.members, user, pk, RemoveMember, DELETE, Unconsulted);
    if found.Err? {
      return found.error;
    }
    var queryset := MembersOfTeam(db.members, pk);
    var instance := MemberById(queryset, memberId);
    if instance.None? {
      return NotFound404;
    }
    var permission := removalRule(user, instance.value, pk);
    if permission == Refuse {
      return Forbidden403;
    }
    if permission == LookupFailed {
      return NotFound404;
    }
    db.DeleteMember(memberId);
    return NoContent204;
  }

  // ---------------------------------------------------------------------------
  // update, partial_update, destroy, create
  // ---------------------------------------------------------------------------

  /** The status of a PUT (`update`) or PATCH (`partial_update`) of team `pk`. */
  function UpdateTeamStatus(teams: map<TeamId, Team>, members: seq<TeamMember>, user: UserId, pk: int,
                            verb: HttpMethod, valid: bool, fields: seq<TeamField>): Status
  {
    match GetObject(teams, members, user, pk, if verb == PUT then Update else PartialUpdate, verb, Unconsulted)
    case Err(status) => status
    case Ok(team) =>
      if !valid then BadRequest400
      else
        match TeamUpdatePlan(members, user, pk, team, fields)
        case Err(e) => FailureStatus(e)
        case Ok(_) => Ok200
  }

  /**
   * A well-formed update of a team by one of its members: an admin always succeeds; a plain
   * member succeeds exactly when `public_edit` is ALL and no policy field is named, is
   * answered 403 when `public_edit` is ADMIN and 400 when it names a policy field under ALL.
   */
  lemma UpdateTeamOutcome(teams: map<TeamId, Team>, members: seq<TeamMember>, user: UserId, pk: int,
                          verb: HttpMethod, fields: seq<TeamField>)
    requires verb == PUT || verb == PATCH
    requires Visible(teams, members, user, pk)
    ensures RoleIn(members, user, pk) == Member(true) ==> UpdateTeamStatus(teams, members, user, pk, verb, true, fields) == Ok200
    ensures RoleIn(members, user, pk) == Member(false) ==>
      (UpdateTeamStatus(teams, members, user, pk, verb, true, fields) == Ok200 <==>
         teams[pk].publicEdit == All && !TouchesPolicy(fields))
    ensures RoleIn(members, user, pk) == Member(false) ==>
      (UpdateTeamStatus(teams, members, user, pk, verb, true, fields) == Forbidden403 <==> teams[pk].publicEdit == Admin)
    ensures RoleIn(members, user, pk) == Member(false) ==>
      (UpdateTeamStatus(teams, members, user, pk, verb, true, fields) == BadRequest400 <==>
         teams[pk].publicEdit == All && TouchesPolicy(fields))
  {
    EditRequestFollowsRules(teams, members, user, pk, verb, Unconsulted);
    TeamUpdatePolicyRule(members, user, pk, teams[pk], fields);
    assert RoleIn(members, user, pk).Member?;
  }

  /** `update` and `partial_update` of team `pk`. */
  method UpdateTeamView(db: Database, user: UserId, pk: int, verb: HttpMethod, valid: bool, fields: seq<TeamField>)
    returns (status: Status)
    requires db.Valid()
    requires verb == PUT || verb == PATCH
    modifies db
    ensures db.Valid()
    ensures status == UpdateTeamStatus(old(db.teams), old(db.members), user, pk, verb, valid, fields)
    ensures status == Ok200 ==> db.teams == old(db.teams)[pk := Assigned(old(db.teams)[pk], fields)]
    ensures status != Ok200 ==> db.teams == old(db.teams)
    ensures db.users == old(db.users) && db.members == old(db.members) && db.projects == old(db.projects)
  {
    var found := GetObject(db.teams, db.members, user, pk, if verb == PUT then Update else PartialUpdate, verb, Unconsulted);
    if found.Err? {
      return found.error;
    }
    if !valid {
      return BadRequest400;
    }
    var saved := UpdateTeam(db, user, pk, fields);
    if saved.Err? {
      return FailureStatus(saved.error);
    }
    return Ok200;
  }

  /** The status of a DELETE (`destroy`) of team `pk`. */
  function DestroyTeamStatus(teams: map<TeamId, Team>, members: seq<TeamMember>, user: UserId, pk: int): (s: Status)
    ensures s == NoContent204 <==> Visible(teams, members, user, pk) && RoleIn(members, user, pk) == Member(true)
    ensures s == Forbidden403 <==> Visible(teams, members, user, pk) && RoleIn(members, user, pk) == Member(false)
    ensures s == NotFound404 <==> !Visible(teams, members, user, pk)
  {
    DeleteRequestFollowsRules(teams, members, user, pk, Unconsulted);
    match GetObject(teams, members, user, pk, Destroy, DELETE, Unconsulted)
    case Err(status) => status
    case Ok(_) => NoContent204
  }

  /** `destroy` of team `pk`, cascading to its memberships and projects. */
  method DestroyTeamView(db: Database, user: UserId, pk: int) returns (status: Status)
    requires db.Valid()
    modifies db
    ensures db.Valid()
    ensures status == DestroyTeamStatus(old(db.teams), old(db.members), user, pk)
    ensures status == NoContent204 ==>
      && db.teams == old(db.teams) - {pk}
      && db.members == Keep(old(db.members), (m: TeamMember) => m.team != pk)
      && db.projects == map p | p in old(db.projects) && old(db.projects)[p].team != pk :: old(db.projects)[p]
    ensures status != NoContent204 ==> db.Contents() == old(db.Contents())
    ensures db.users == old(db.users)
  {
    var found := GetObject(db.teams, db.members, user, pk, Destroy, DELETE, Unconsulted);
    if found.Err? {
      return found.error;
    }
    db.DeleteTeam(pk);
    return NoContent204;
  }

  /**
   * `create` of a team: a well-formed request makes a new team, with both policies at their
   * default whatever was sent, whose only membership is its creator's, as admin; every other
   * membership row stays as it was.
   */
  method CreateTeamView(db: Database, user: UserId, valid: bool, input: TeamInput)
    returns (status: Status, created: Option<TeamId>)
    requires db.Valid()
    requires UserExists(db.users, user)
    modifies db
    ensures db.Valid()
    ensures !valid ==> status == BadRequest400 && created == None && db.Contents() == old(db.Contents())
    ensures !valid ==> db.members == old(db.members)
    ensures valid ==>
      && status == Created201 && created.Some?
      && created.value !in old(db.teams)
      && db.teams == old(db.teams)[created.value := Team(input.name, input.description.GetOr(""), All, All)]
      && db.members == old(db.members) + [TeamMember(old(db.nextMemberId), user, created.value, true)]
      && MembersOfTeam(db.members, created.value) == [TeamMember(old(db.nextMemberId), user, created.value, true)]
      && Visible(db.teams, db.members, user, created.value)
      && RoleIn(db.members, user, created.value) == Member(true)
    ensures db.users == old(db.users) && db.projects == old(db.projects)
  {
    if !valid {
      return BadRequest400, None;
    }
    var pk := CreateTeam(db, user, input);
    return Created201, Some(pk);
  }
}

=== FILE: wrappers.dfy ===
/** Failure-carrying result types used throughout the model. */
module Wrappers {

  datatype Option<+T> = None | Some(value: T) {
    function GetOr(default: T): T {
      match this
      case Some(v) => v
      case None => default
    }
  }

  datatype Result<+T, +E> = Ok(value: T) | Err(error: E)
}
